=== FILE: README.md ===
# Batas.AI client orchestration and backend decisions, modelled in Dafny

This project models the decision logic of a Philippine legal-assistance web
application. The logic sits between its React views and its REST backend. The
model covers:

- the **language provider**: the `en`/`tl` dictionaries, the lookup `t` that
  falls back to the key, the language toggle and the `useLanguage` guard;
- the **chat controller**: a session id fixed on mount, an append-only
  transcript, and a send guarded by the `loading` flag. A send appends the
  user message first, then exactly one assistant message (the reply or a
  fixed apology), then releases `loading`;
- the **translate, documents, knowledge and dashboard views**. Each is a
  fetch state machine plus its one pure derivation: the blank-text guard, the
  case-insensitive filename filter, the query parameters built from filters,
  and the all-or-nothing dashboard update;
- the **backend handlers' pure decisions**: language-detection confidence and
  error re-wrapping, source-language resolution and the placeholder
  translation, upload classification, document lookup, the chat session id
  and prompt, the legal-knowledge query, and idempotent seeding.

Every handler is one pure step function. The network result is an input
(`Outcome.Ok(body) | Outcome.Err`). Clocks, generated ids, language
detection, file decoding and the language model are parameters. Collections
are sequences.

Modules: `Outcomes` (Option/Outcome/Result), `Text` (JavaScript `trim`, ASCII
`toLowerCase`, `includes`, `endsWith`, decimal rendering), `Seqs` (`filter`),
`Api` (response shapes and the shared list-fetch rule), `Localization`,
`LegalChat`, `Translate`, `Documents`, `Knowledge`, `Dashboard`, `Server`,
and `EndToEnd`. `EndToEnd` connects each view's request to the handler that
serves it.

Notes on the code:

- The two dictionaries in the code have identical key sets (35 keys each),
  and both name the product `Batas.AI`. `Localization.DictionariesShareKeys`
  proves the key sets are equal.
- Session ids are `session_` followed by `Date.now()`. The model proves only
  that two ids are equal exactly when their clock readings are equal
  (`LegalChat.SessionIdsCollideIffSameClock`). It does not prove uniqueness,
  because the code does not guarantee it.
- The views have no stale-update guard for a fetch that settles after
  unmount, so none is modelled.
- `handleTranslate` does not check `loading` itself. Only its button is
  disabled while a translation is in flight (`Translate.ButtonCoversGuard`).

## Model

| member | source | states |
|---|---|---|
| Text.TrimEmptyIffBlank | frontend/src/components/LegalChat.js:32 | `!s.trim()` holds exactly when every character is ECMAScript white space or a line terminator |
| Text.DecimalRoundTrip | frontend/src/components/LegalChat.js:19 | the decimal rendering of a timestamp reads back as the same number |
| Localization.Lookup | frontend/src/contexts/LanguageContext.js:93 | lookup fails only when the language has no dictionary; a present, non-empty entry is returned, and a missing or empty one falls back to the key |
| Localization.T | frontend/src/contexts/LanguageContext.js:93 | `t` fails exactly when the provider's language has no dictionary; a present, non-empty entry is returned and a missing key is echoed |
| Localization.MissingKeyEchoes | frontend/src/contexts/LanguageContext.js:93 | a key missing from the active language's dictionary resolves to the key unchanged, whatever other languages hold |
| Localization.Toggle | frontend/src/contexts/LanguageContext.js:95-97 | the toggle always yields a supported language, flips between `en` and `tl`, and sends any other value to `en` |
| Localization.ToggleInvolutive | frontend/src/contexts/LanguageContext.js:95-97 | toggling twice restores a supported language |
| Localization.ToggleTwiceOutsideSupported | frontend/src/contexts/LanguageContext.js:96 | outside `{en, tl}` toggling twice gives `tl`, so the toggle is not an involution there |
| Localization.UseLanguage | frontend/src/contexts/LanguageContext.js:5-11 | outside a provider the hook fails with its fixed message; inside, it returns the provider's value |
| Localization.DictionariesShareKeys | frontend/src/contexts/LanguageContext.js:16-91 | the `en` and `tl` dictionaries define exactly the same keys, and these are the only languages |
| Localization.EntriesNonEmpty | frontend/src/contexts/LanguageContext.js:17-90 | no dictionary entry is empty and no key is the empty string |
| Localization.EntriesDifferFromKeys | frontend/src/contexts/LanguageContext.js:17-90 | no entry equals its own key, so an echoed key always means a missing key |
| Localization.ResolveTotal | frontend/src/contexts/LanguageContext.js:93 | with a supported language `t` never fails, echoes exactly the missing keys, and yields "" only for the empty key |
| Localization.TranslatedInBothOrNeither | frontend/src/contexts/LanguageContext.js:16-93 | a key is echoed in `en` exactly when it is echoed in `tl` |
| Localization.SharedKeyTranslated | frontend/src/contexts/LanguageContext.js:93 | a key both dictionaries define is translated, never echoed, in either supported language |
| Localization.ProviderInvariant | frontend/src/contexts/LanguageContext.js:14-100 | the language starts supported and stays supported under toggling; the raw setter keeps it supported only for supported values; any other value that is not an inherited `Object.prototype` name makes `t` fail |
| LegalChat.Mount | frontend/src/components/LegalChat.js:18-21 | mounting sets the session id to `session_` followed by digits without a leading zero that read back as the clock, and changes nothing else |
| LegalChat.EditInput | frontend/src/components/LegalChat.js:144-148 | typing replaces the input unless a send is in flight, when it is ignored; nothing else changes |
| LegalChat.SessionIdEncodesClock | frontend/src/components/LegalChat.js:18-21 | the session id is `session_` followed by the decimal digits of the mount-time clock, which read back as that clock value |
| LegalChat.SessionIdsCollideIffSameClock | frontend/src/components/LegalChat.js:19 | ids built from two clock readings are equal exactly when the readings are |
| LegalChat.MountsCollideIffSameClock | frontend/src/components/LegalChat.js:18-21 | two mounts, from any states, get equal session ids exactly when their clock readings are equal |
| LegalChat.BeginSend | frontend/src/components/LegalChat.js:31-43 | a send is rejected exactly when loading or the input is blank; an accepted send appends the untrimmed user message, clears the input, sets loading, and sends the input with the current session id |
| LegalChat.ReplyMessage | frontend/src/components/LegalChat.js:45-59 | a settled call contributes an assistant message holding the reply on success and the fixed apology on failure |
| LegalChat.CompleteSend | frontend/src/components/LegalChat.js:45-62 | settling appends exactly one assistant message (the reply or the apology), releases loading, and keeps the input and session id |
| LegalChat.HandleSend | frontend/src/components/LegalChat.js:31-63 | a guarded send changes nothing; an accepted one grows the transcript by exactly 2 (the user message, then the reply or the fixed apology), leaves earlier messages and the session id alone, and ends idle |
| LegalChat.HandleKeyPress | frontend/src/components/LegalChat.js:65-70 | plain Enter runs the send; Shift+Enter and other keys change nothing |
| LegalChat.ButtonMatchesGuard | frontend/src/components/LegalChat.js:153 | the send button is disabled exactly when the handler would reject the send |
| LegalChat.NoSecondSendWhilePending | frontend/src/components/LegalChat.js:32-148 | while a send is in flight a second send is rejected (the guard at the top of the send handler) and typing is ignored (the disabled text area) |
| LegalChat.InvariantHoldsInitially | frontend/src/components/LegalChat.js:12-21 | the empty transcript satisfies the controller invariant before and after mount |
| LegalChat.BeginSendPreservesInvariant | frontend/src/components/LegalChat.js:34-37 | phase one keeps roles alternating and leaves one unanswered user message while loading |
| LegalChat.CompleteSendPreservesInvariant | frontend/src/components/LegalChat.js:45-62 | phase two answers the pending user message and returns to an even, idle transcript |
| LegalChat.HandleSendPreservesInvariant | frontend/src/components/LegalChat.js:31-63 | sends and edits keep the transcript alternating user/assistant, with every user message non-blank |
| LegalChat.ConverseAppends | frontend/src/components/LegalChat.js:31-63 | from idle, a run of turns grows the transcript by exactly two per accepted turn, never alters earlier messages or the session id, and ends idle |
| LegalChat.ConverseRecordsSendOrder | frontend/src/components/LegalChat.js:34-38 | the user messages of the transcript are the accepted texts in the order they were sent |
| Translate.InitialTargetIsOtherLanguage | frontend/src/components/Translate.js:15-16 | the source defaults to auto-detect and the target to the other interface language (`tl` for `en`, `en` otherwise) |
| Translate.BeginTranslate | frontend/src/components/Translate.js:19-31 | blank text only raises the error notice; other text sets loading and sends the text and both selections unchanged |
| Translate.CompletionNotice | frontend/src/components/Translate.js:32-36 | a confirmation `Translation completed` exactly on success and an alert `Translation failed` exactly on failure |
| Translate.CompleteTranslate | frontend/src/components/Translate.js:32-39 | success shows the returned translation, failure keeps the previous one, and loading is released either way |
| Translate.HandleTranslate | frontend/src/components/Translate.js:19-40 | blank text leaves the state untouched; otherwise the result replaces the translation on success only, and loading ends false |
| Translate.ButtonCoversGuard | frontend/src/components/Translate.js:119 | the button is disabled exactly when loading or when the handler would refuse the text |
| Translate.FailureKeepsPreviousResult | frontend/src/components/Translate.js:34-39 | a failed translation from an idle state changes nothing |
| Api.SettleList | frontend/src/components/Documents.js:22-27 | a settled list fetch takes the response list on success (empty when the field is missing) and keeps the current list on failure |
| Api.SettleListDependsOnlyOnSuccess | frontend/src/components/Knowledge.js:27-31 | a successful fetch result does not depend on the previous list, and only a success can change the list |
| Documents.Filtered | frontend/src/components/Documents.js:52-54 | the filtered list holds exactly the documents whose lower-cased filename contains the lower-cased query, each as many times as in the input and in the input's order |
| Documents.FilteredIsSubsequence | frontend/src/components/Documents.js:52-54 | the filtered list is a subsequence of the documents, so their order is kept |
| Documents.EmptyQueryKeepsAll | frontend/src/components/Documents.js:52-54 | an empty query shows every document |
| Documents.FilteredIdempotent | frontend/src/components/Documents.js:52-54 | filtering the filtered list again changes nothing |
| Documents.FilterIgnoresQueryCase | frontend/src/components/Documents.js:53 | a query and its lower-cased form select the same documents |
| Documents.MountShowsEmptyState | frontend/src/components/Documents.js:12-120 | the view starts with an empty list, so it opens on the empty-state panel whatever the query |
| Documents.EmptyStateIffNoMatch | frontend/src/components/Documents.js:94-123 | the empty-state panel shows exactly when no document matches the query |
| Documents.SettleFetch | frontend/src/components/Documents.js:20-28 | a fetch settles the list by the shared rule and touches nothing else |
| Documents.BeginUpload | frontend/src/components/Documents.js:30-34 | without a file the upload does nothing; with one, only `uploading` is set |
| Documents.CompleteUpload | frontend/src/components/Documents.js:38-49 | `uploading` is released either way, a re-fetch is issued exactly after success, and the list is untouched |
| Documents.UploadLeavesListToRefetch | frontend/src/components/Documents.js:30-49 | an upload by itself never changes the list |
| Knowledge.BuildParams | frontend/src/components/Knowledge.js:22-25 | category and language are sent exactly when not `all`, and the search text exactly when non-empty; each sent value is the selection itself |
| Knowledge.DefaultsBuildNoParams | frontend/src/components/Knowledge.js:12-25 | the default filters produce empty parameters |
| Knowledge.BuildParamsInjective | frontend/src/components/Knowledge.js:22-25 | different filter settings never produce the same parameters |
| Knowledge.BlankQueryIsSent | frontend/src/components/Knowledge.js:25 | whitespace-only search text is sent untrimmed |
| Knowledge.CategoryOptionsFilter | frontend/src/components/Knowledge.js:23-38 | choosing any listed option other than the first sends that category |
| Knowledge.OnEvent | frontend/src/components/Knowledge.js:16-74 | selecting a category or language stores it and typing stores the search text, leaving the other fields alone; a fetch is triggered exactly by a changed category, a changed language, or Enter in the search box, never by typing, and carries the parameters of the new state |
| Knowledge.TypingOnlyAffectsNextSearch | frontend/src/components/Knowledge.js:34-58 | typing fetches nothing, and the next Enter sends the typed text |
| Knowledge.SettleFetch | frontend/src/components/Knowledge.js:20-31 | a fetch settles the laws by the shared rule and keeps the filters |
| Dashboard.Settle | frontend/src/components/Dashboard.js:24-37 | both values are written only when both requests succeed, neither is written otherwise, and loading ends false |
| Dashboard.AllOrNothing | frontend/src/components/Dashboard.js:11-36 | from the initial state, any failure leaves the stats at zero and the list empty |
| Dashboard.StatCardsComplete | frontend/src/components/Dashboard.js:39-44 | there are four cards in the order documents, translations, chat sessions, legal articles, each labelled by a key both dictionaries define |
| Dashboard.StatCardLabelTranslated | frontend/src/components/Dashboard.js:40-43 | every card label is shown translated, never as its raw key, in either language |
| Dashboard.RecentPanel | frontend/src/components/Dashboard.js:80-115 | exactly one panel is chosen: loading text while loading, otherwise the list when non-empty, otherwise the empty state |
| Dashboard.PanelAfterSettle | frontend/src/components/Dashboard.js:80-115 | settling from the initial (mount) state, the loading text never shows, and the list shows exactly when both requests succeeded with documents |
| Server.Rewrap | backend/server.py:191-192 | an error caught by a handler's generic clause always reaches the client as a 500 |
| Server.RewrapOf400 | backend/server.py:183-192 | a 400 raised inside the `try` becomes a 500 whose detail starts with `400: ` |
| Server.DetectLanguageSimple | backend/server.py:99-105 | the result is the detector's answer on the first 1000 characters whenever it gives one, and "unknown" exactly when it fails |
| Server.DetectionSeesOnlyWindow | backend/server.py:102 | texts that agree on their first 1000 characters are detected alike |
| Server.DetectLanguageEndpoint | backend/server.py:179-192 | missing or empty text fails with status 500 (the wrapped 400); otherwise the confidence is 0.9 exactly when the language is not "unknown" and 0.0 exactly when it is |
| Server.ResolveSource | backend/server.py:199-201 | the source language is the detected one for `auto` and the request's value otherwise |
| Server.PlaceholderEndsWithText | backend/server.py:205 | the placeholder starts with its header and ends with the original text, with the exact length of its parts |
| Server.PlaceholderInjective | backend/server.py:205 | for fixed languages, different texts give different placeholders |
| Server.TranslateText | backend/server.py:195-224 | one history record matching the response is appended; the detected language is reported exactly for `auto`; the translation is the `[Translation from <source> to <target>]: ` header followed by the original text |
| Server.DocTypeOf | backend/server.py:244-249 | an upload is a PDF exactly when its filename ends with `.pdf` (case-sensitive) |
| Server.UpperCaseExtensionIsText | backend/server.py:244 | `Contract.PDF` is treated as text and `contract.pdf` as PDF |
| Server.PdfFailure | backend/server.py:96-97 | a failed PDF extraction reaches the client as a 500 whose detail is `400: Error extracting PDF: ` and the message |
| Server.ExtractText | backend/server.py:241-249 | the text comes from the extractor the file type selects; its failure is a 500 (a wrapped 400 for PDF) |
| Server.UploadDocument | backend/server.py:238-274 | an upload fails exactly when the extraction fails; otherwise exactly one record is appended, with the extracted content, the type `pdf` for a `.pdf` name and `text` otherwise, the detected language and no tags, and the reply echoes its id, name and language |
| Server.FindById | backend/server.py:289 | the result is the first position holding the id, or none when no document has it |
| Server.UploadThenGet | backend/server.py:238-296 | a document uploaded under a fresh id is exactly what fetching that id returns |
| Server.GetDocument | backend/server.py:286-296 | a lookup fails with 404 "Document not found" exactly when no stored document has the id; otherwise it returns a stored document with that id |
| Server.ErrorStatusesDiffer | backend/server.py:290-294 | a missing document keeps its 404, while empty detection text surfaces as 500 |
| Server.ResolveSessionId | backend/server.py:302 | a non-empty requested session id is kept; a missing or empty one is replaced by the generated id |
| Server.Prompt | backend/server.py:312-314 | the prompt always ends with the question; it is the question alone without a non-empty context, and otherwise is exactly `Context: `, the context, a blank line, `Question: ` and the question |
| Server.PromptDeterminesContext | backend/server.py:312-314 | two prompts with a non-empty context that are equal for the same question carry the same context, so the context reaches the model intact |
| Server.PromptDeterminesQuestion | backend/server.py:312-314 | equal prompts built with the same context carry the same question |
| Server.LegalChat | backend/server.py:299-336 | the call fails with 500 exactly when the model raises; otherwise it answers with the model's reply and the resolved session id, and appends one record holding the original question |
| Server.BuildQuery | backend/server.py:351-364 | the text search over title, content and tags (case-insensitive) is present exactly for a non-empty `q`; category and language filters are present exactly for non-empty values and equal them |
| Server.EmptyArgumentsQueryAll | backend/server.py:354-364 | no arguments, or only empty ones, give the empty query |
| Server.InitializeLegalKnowledge | backend/server.py:107-170 | a non-empty collection is left as is; an empty one receives exactly the six mock laws, five in `en` and one in `tl` |
| Server.SeedingIdempotent | backend/server.py:107-111 | seeding twice is the same as seeding once |
| EndToEnd.TranslationShowsOriginal | backend/server.py:195-224 | the text a view sends comes back as the tail of the translation it shows, with a detected language exactly when the source was auto |
| EndToEnd.ServerKeepsMountedSession | backend/server.py:302 | after mount, the server files every chat message under the view's own session id |
| EndToEnd.UnmountedSendGetsServerSession | backend/server.py:302 | a message sent without a session id is filed under the server-generated id |
| EndToEnd.ChatReplyReachesTranscript | frontend/src/components/LegalChat.js:40-59 | the assistant message appended is the model's answer when the handler succeeds and the apology when it fails |
| EndToEnd.KnowledgeFiltersReachQuery | frontend/src/components/Knowledge.js:22-27 | backend filters apply exactly for selections other than `all` and empty; any non-empty search text, even white space, becomes a text search |
| EndToEnd.SeedCategoriesMatchFilter | frontend/src/components/Knowledge.js:38 | the five English laws that seeding puts into an empty collection carry the five offered categories in order; the Tagalog law's category is not offered |

## Left out

- JSX rendering, CSS, icons, scroll-to-bottom and toasts. Only `Translate` models its notices; other views model which render branch is chosen, or nothing.
- React hook scheduling and batching. Each handler is one sequential step. Two clicks that both pass a stale `loading` check are a concurrency artefact and are not modelled.
- A stale-update guard for views that unmount while a fetch is pending. The code has none.
- `Date.now()`, `uuid.uuid4()` and `datetime.now()`: ids and clocks are parameters. Session-id uniqueness is not claimed, because the code does not guarantee it.
- The axios client configuration: its timeout is just one way a call fails (`Err`).
- Routing, the sidebar, and the history view (the same list-fetch pattern as Documents and Knowledge).
- Backend I/O is left out. This covers MongoDB reads and writes and their failures (a failed insert would be a 500), sorting and limits inside the database, the language-model call, PyPDF2, langdetect, CORS and startup wiring. The model, the detector and the extractors are parameters.
- The `$regex` matching semantics of the legal-knowledge search: only the query is built.
- The list endpoints without decisions of their own: `/translations`, `/documents`, `/chat/sessions/{id}`, `/stats` and `/`.
- Unicode case folding: `toLowerCase` is modelled on ASCII letters only.
- Localization.Lookup, Localization.T: do not model keys inherited from JavaScript's `Object.prototype` (for example `t('toString')` returns a function); only own dictionary keys are modelled. Likewise, a language value that names an inherited property (`Localization.InheritedNames`, such as `toString`) makes the code's `translations[language]` an inherited value and `t` does not throw; the model reports failure there, so `Localization.ProviderInvariant` makes no claim for those names.
- LegalChat.CompleteSend: assumes the reply field is a string; a 2xx body without `response` would append `undefined`.
- Translate.CompleteTranslate: assumes `translated_text` is present in a successful body.
- Dashboard: the two mount requests, including the `limit=5` of the recent-documents request, are not modelled; only their settled outcomes are.
- Dashboard.Settle: assumes the `/stats` body has the four counts; the code stores whatever object the server returns.
- Documents.BeginUpload: the picked file is only present or absent; its bytes and type hint are not modelled.
- Server.UploadDocument: a missing filename (which would raise) is not modelled.
- Server.TranslateText: the request's `source_language` is optional and defaults to `auto`; an omitted field is modelled by passing `auto`.
- Server.LegalChat: the reply's `timestamp` field and the fixed system message are not modelled.

=== FILE: api.dfy ===
/** The JSON shapes the client reads from the REST backend, and the one
    update rule every list view applies to a settled fetch. */
module Api {
  import opened Outcomes

  /** An entry of `GET /documents` (the stored text is not returned). */
  datatype Doc = Doc(id: string, filename: string, language: string, createdAt: string)

  /** An entry of `GET /legal-knowledge`. */
  datatype Law = Law(id: string, title: string, category: string, content: string,
                     tags: seq<string>, language: string, createdAt: string)

  /** The body of `GET /stats`. */
  datatype Stats = Stats(documents: int, translations: int, chatSessions: int, legalArticles: int)

  /** `response.data.<field> || []`: the list field of a successful response,
      or the empty list when the field is missing. */
  function OrEmpty<T>(field: Option<seq<T>>): seq<T> {
    field.GetOr([])
  }

  /** The update a list view makes when its fetch settles: a success replaces
      the list (missing field read as empty); a failure keeps the current one. */
  function SettleList<T>(current: seq<T>, outcome: Outcome<Option<seq<T>>>): (next: seq<T>)
    ensures outcome.Err? ==> next == current
    ensures outcome.Ok? && outcome.value.Some? ==> next == outcome.value.value
    ensures outcome.Ok? && outcome.value.None? ==> next == []
  {
    match outcome
    case Ok(field) => OrEmpty(field)
    case Err => current
  }

  /** Settling depends only on the outcome when it succeeds, and the list only
      changes through a success. */
  lemma SettleListDependsOnlyOnSuccess<T>(a: seq<T>, b: seq<T>, outcome: Outcome<Option<seq<T>>>)
    ensures outcome.Ok? ==> SettleList(a, outcome) == SettleList(b, outcome)
    ensures SettleList(a, outcome) != a ==> outcome.Ok?
  {
  }
}

=== FILE: chat.dfy ===
/** The chat view's controller: a session id fixed on mount, an append-only
    transcript, and a two-phase send guarded by the `loading` flag. */
module LegalChat {
  import opened Outcomes
  import opened Text

  datatype Role = User | Assistant

  datatype Message = Message(role: Role, content: string)

  /** `{messages, input, loading, sessionId}` of the view. */
  datatype ChatState = ChatState(messages: seq<Message>, input: string, loading: bool, sessionId: Option<string>)

  /** The body of `POST /chat`. */
  datatype ChatRequest = ChatRequest(message: string, sessionId: Option<string>)

  /** The fixed assistant message shown when the chat call fails. */
  const Apology: string := "I apologize, but I encountered an error. Please try again."

  const SessionPrefix: string := "session_"

  /** The state before the mount effect has run. */
  const InitialChat: ChatState := ChatState([], "", false, None)

  /** `session_${Date.now()}`, the clock reading passed in. */
  function SessionIdAt(now: nat): string {
    SessionPrefix + Decimal(now)
  }

  /** The mount effect: the only place the session id is written. */
  function Mount(s: ChatState, now: nat): (r: ChatState)
    ensures r.sessionId.Some? && |r.sessionId.value| > |SessionPrefix|
    ensures r.sessionId.value[..|SessionPrefix|] == SessionPrefix
    ensures AllDigits(r.sessionId.value[|SessionPrefix|..]) && DecimalValue(r.sessionId.value[|SessionPrefix|..]) == now
    ensures |r.sessionId.value| > |SessionPrefix| + 1 ==> r.sessionId.value[|SessionPrefix|] != '0'
    ensures r.messages == s.messages && r.input == s.input && r.loading == s.loading
  {
    SessionIdEncodesClock(now);
    assert SessionIdAt(now)[|SessionPrefix|..] == Decimal(now);
    s.(sessionId := Some(SessionIdAt(now)))
  }

  /** A session id is the prefix followed by the decimal clock reading, which
      can be read back from it. */
  lemma SessionIdEncodesClock(now: nat)
    ensures var id := SessionIdAt(now);
      && |id| > |SessionPrefix| && id[..|SessionPrefix|] == SessionPrefix
      && AllDigits(id[|SessionPrefix|..]) && DecimalValue(id[|SessionPrefix|..]) == now
  {
    assert SessionIdAt(now)[|SessionPrefix|..] == Decimal(now);
    DecimalRoundTrip(now);
  }

  /** Two mounts get the same session id exactly when the clock read the same:
      ids are only as unique as the millisecond timestamps behind them. */
  lemma SessionIdsCollideIffSameClock(a: nat, b: nat)
    ensures SessionIdAt(a) == SessionIdAt(b) <==> a == b
  {
    if SessionIdAt(a) == SessionIdAt(b) {
      SessionIdEncodesClock(a);
      SessionIdEncodesClock(b);
    }
  }

  /** Two mounts, of any states, get the same session id exactly when they
      read the same clock. */
  lemma MountsCollideIffSameClock(s: ChatState, t: ChatState, a: nat, b: nat)
    ensures Mount(s, a).sessionId == Mount(t, b).sessionId <==> a == b
  {
    SessionIdsCollideIffSameClock(a, b);
  }

  /** `onChange` of the text area, which is disabled while a send is in flight. */
  function EditInput(s: ChatState, text: string): (r: ChatState)
    ensures r.input == (if s.loading then s.input else text)
    ensures r.messages == s.messages && r.loading == s.loading && r.sessionId == s.sessionId
  {
    if s.loading then s else s.(input := text)
  }

  /** `disabled={loading || !input.trim()}` of the send button. */
  predicate SendDisabled(s: ChatState) {
    s.loading || Trim(s.input) == []
  }

  /** Phase one of `handleSend`: either the guard rejects the send, or the
      user message is appended, the input cleared, `loading` set, and one
      request issued. */
  datatype SendStart = Rejected | Started(pending: ChatState, request: ChatRequest)

  function BeginSend(s: ChatState): (r: SendStart)
    ensures r.Rejected? <==> s.loading || IsBlank(s.input)
    ensures r.Started? ==>
      && r.pending.messages == s.messages + [Message(User, s.input)]
      && r.pending.input == [] && r.pending.loading && r.pending.sessionId == s.sessionId
      && r.request == ChatRequest(s.input, s.sessionId)
  {
    TrimEmptyIffBlank(s.input);
    if SendDisabled(s) then Rejected
    else Started(ChatState(s.messages + [Message(User, s.input)], [], true, s.sessionId),
                 ChatRequest(s.input, s.sessionId))
  }

  /** The assistant message a settled chat call contributes. */
  function ReplyMessage(reply: Outcome<string>): (m: Message)
    ensures m.role == Assistant
    ensures reply.Ok? ==> m.content == reply.value
    ensures reply.Err? ==> m.content == Apology
  {
    match reply
    case Ok(text) => Message(Assistant, text)
    case Err => Message(Assistant, Apology)
  }

  /** Phase two of `handleSend`: append exactly one assistant message and
      release `loading` (the `finally`). */
  function CompleteSend(pending: ChatState, reply: Outcome<string>): (r: ChatState)
    ensures r.messages == pending.messages + [ReplyMessage(reply)]
    ensures !r.loading && r.input == pending.input && r.sessionId == pending.sessionId
  {
    pending.(messages := pending.messages + [ReplyMessage(reply)], loading := false)
  }

  /** `handleSend` run to completion against the given outcome of the call. */
  function HandleSend(s: ChatState, reply: Outcome<string>): (r: ChatState)
    ensures SendDisabled(s) ==> r == s
    ensures !SendDisabled(s) ==>
      && r.messages == s.messages + [Message(User, s.input), ReplyMessage(reply)]
      && !r.loading && r.input == [] && r.sessionId == s.sessionId
  {
    TrimEmptyIffBlank(s.input);
    match BeginSend(s)
    case Rejected => s
    case Started(pending, _) => CompleteSend(pending, reply)
  }

  /** A key press in the text area. */
  datatype KeyEvent = KeyEvent(key: string, shiftKey: bool)

  /** `handleKeyPress`: plain Enter sends, Shift+Enter and other keys do not. */
  function HandleKeyPress(s: ChatState, e: KeyEvent, reply: Outcome<string>): (r: ChatState)
    ensures e.key != "Enter" || e.shiftKey ==> r == s
    ensures e.key == "Enter" && !e.shiftKey ==> r == HandleSend(s, reply)
  {
    if e.key == "Enter" && !e.shiftKey then HandleSend(s, reply) else s
  }

  /** The button is disabled exactly when pressing it would be rejected. */
  lemma ButtonMatchesGuard(s: ChatState)
    ensures SendDisabled(s) <==> BeginSend(s).Rejected?
  {
    TrimEmptyIffBlank(s.input);
  }

  /** While one send is in flight a second is rejected and typing is ignored. */
  lemma NoSecondSendWhilePending(s: ChatState, text: string)
    requires BeginSend(s).Started?
    ensures BeginSend(BeginSend(s).pending).Rejected?
    ensures EditInput(BeginSend(s).pending, text) == BeginSend(s).pending
  {
  }

  /** Roles alternate user, assistant, user, ... and every user message holds
      some non-blank text. */
  ghost predicate Alternates(m: seq<Message>) {
    && (forall i :: 0 <= i < |m| ==> (m[i].role == User <==> i % 2 == 0))
    && (forall i :: 0 <= i < |m| && m[i].role == User ==> !IsBlank(m[i].content))
  }

  /** The controller's invariant: the transcript alternates, and it ends with
      an unanswered user message exactly while a send is in flight. */
  ghost predicate Invariant(s: ChatState) {
    Alternates(s.messages) && (|s.messages| % 2 == 1 <==> s.loading)
  }

  lemma InvariantHoldsInitially(now: nat)
    ensures Invariant(InitialChat) && Invariant(Mount(InitialChat, now))
  {
  }

  /** Appending a message of the role whose turn it is keeps the roles
      alternating. */
  lemma AlternatesAppend(m: seq<Message>, next: Message)
    requires Alternates(m)
    requires next.role == User <==> |m| % 2 == 0
    requires next.role == User ==> !IsBlank(next.content)
    ensures Alternates(m + [next])
  {
    var m' := m + [next];
    forall i | 0 <= i < |m'|
      ensures (m'[i].role == User <==> i % 2 == 0)
      ensures m'[i].role == User ==> !IsBlank(m'[i].content)
    {
      if i < |m| {
        assert m'[i] == m[i];
      }
    }
  }

  lemma BeginSendPreservesInvariant(s: ChatState)
    requires Invariant(s)
    ensures BeginSend(s).Started? ==> Invariant(BeginSend(s).pending)
  {
    if BeginSend(s).Started? {
      AlternatesAppend(s.messages, Message(User, s.input));
    }
  }

  lemma CompleteSendPreservesInvariant(pending: ChatState, reply: Outcome<string>)
    requires Invariant(pending) && pending.loading
    ensures Invariant(CompleteSend(pending, reply))
  {
    AlternatesAppend(pending.messages, ReplyMessage(reply));
  }

  lemma HandleSendPreservesInvariant(s: ChatState, reply: Outcome<string>, text: string)
    requires Invariant(s)
    ensures Invariant(HandleSend(s, reply))
    ensures Invariant(EditInput(s, text))
  {
    if BeginSend(s).Started? {
      BeginSendPreservesInvariant(s);
      CompleteSendPreservesInvariant(BeginSend(s).pending, reply);
    }
  }

  /** One user turn: type `text`, press send, and the call settles with `reply`. */
  datatype Turn = Turn(text: string, reply: Outcome<string>)

  function Converse(s: ChatState, turns: seq<Turn>): ChatState
    decreases |turns|
  {
    if turns == [] then s
    else Converse(HandleSend(EditInput(s, turns[0].text), turns[0].reply), turns[1..])
  }

  /** The texts of the turns the guard accepts, in order. */
  function SentTexts(turns: seq<Turn>): seq<string> {
    if turns == [] then []
    else if IsBlank(turns[0].text) then SentTexts(turns[1..])
    else [turns[0].text] + SentTexts(turns[1..])
  }

  /** The contents of the user messages of a transcript, in order. */
  function UserTexts(m: seq<Message>): seq<string> {
    if m == [] then []
    else if m[0].role == User then [m[0].content] + UserTexts(m[1..])
    else UserTexts(m[1..])
  }

  lemma {:induction false} UserTextsAppend(a: seq<Message>, b: seq<Message>)
    ensures UserTexts(a + b) == UserTexts(a) + UserTexts(b)
  {
    if a == [] {
      assert a + b == b;
    } else {
      assert (a + b)[1..] == a[1..] + b;
      UserTextsAppend(a[1..], b);
    }
  }

  /** The messages one turn adds: none for blank text, otherwise the user
      message and the reply. */
  function Added(text: string, reply: Outcome<string>): seq<Message> {
    if IsBlank(text) then [] else [Message(User, text), ReplyMessage(reply)]
  }

  /** One turn from an idle state appends exactly the turn's messages. */
  lemma TurnMessages(s: ChatState, text: string, reply: Outcome<string>)
    requires !s.loading
    ensures var h := HandleSend(EditInput(s, text), reply);
      && h.messages == s.messages + Added(text, reply)
      && !h.loading && h.sessionId == s.sessionId
  {
    TrimEmptyIffBlank(text);
  }

  lemma AddedUserTexts(text: string, reply: Outcome<string>)
    ensures UserTexts(Added(text, reply)) == if IsBlank(text) then [] else [text]
  {
    if !IsBlank(text) {
      var added := Added(text, reply);
      assert added[1..] == [ReplyMessage(reply)];
      assert ReplyMessage(reply).role == Assistant;
      assert added[1..][1..] == [];
      assert UserTexts(added[1..]) == UserTexts(added[1..][1..]) == [];
    }
  }

  /** One turn from an idle state: a blank text changes nothing but the input;
      any other text adds the user message and one reply behind the old ones. */
  lemma TurnStep(s: ChatState, text: string, reply: Outcome<string>)
    requires !s.loading
    ensures var h := HandleSend(EditInput(s, text), reply);
      && |h.messages| == |s.messages| + (if IsBlank(text) then 0 else 2)
      && h.messages[..|s.messages|] == s.messages
      && UserTexts(h.messages) == UserTexts(s.messages) + (if IsBlank(text) then [] else [text])
      && !h.loading && h.sessionId == s.sessionId
  {
    TurnMessages(s, text, reply);
    UserTextsAppend(s.messages, Added(text, reply));
    AddedUserTexts(text, reply);
  }

  /** Starting idle, a sequence of turns grows the transcript by exactly two
      messages per accepted turn, never touches earlier messages or the
      session id, and ends idle. */
  lemma {:induction false} ConverseAppends(s: ChatState, turns: seq<Turn>)
    requires !s.loading
    ensures var r := Converse(s, turns);
      && |r.messages| == |s.messages| + 2 * |SentTexts(turns)|
      && r.messages[..|s.messages|] == s.messages
      && !r.loading && r.sessionId == s.sessionId
    decreases |turns|
  {
    if turns != [] {
      var h := HandleSend(EditInput(s, turns[0].text), turns[0].reply);
      TurnStep(s, turns[0].text, turns[0].reply);
      ConverseAppends(h, turns[1..]);
      var r := Converse(h, turns[1..]);
      assert r.messages[..|s.messages|] == r.messages[..|h.messages|][..|s.messages|];
    }
  }

  /** The user messages one turn from an idle state leaves behind. */
  lemma TurnUserTexts(s: ChatState, text: string, reply: Outcome<string>)
    requires !s.loading
    ensures var h := HandleSend(EditInput(s, text), reply);
      && UserTexts(h.messages) == UserTexts(s.messages) + Accepted(Turn(text, reply))
      && !h.loading
  {
    TurnStep(s, text, reply);
  }

  /** The texts a turn contributes when the guard accepts it. */
  function Accepted(t: Turn): seq<string> {
    if IsBlank(t.text) then [] else [t.text]
  }

  lemma SentTextsStep(turns: seq<Turn>)
    requires turns != []
    ensures SentTexts(turns) == Accepted(turns[0]) + SentTexts(turns[1..])
  {
  }

  /** Regrouping a two-step append: `(a + x) + rest` is `a + (x + rest)`. */
  lemma AppendRegroup<T>(total: seq<T>, mid: seq<T>, a: seq<T>, x: seq<T>, rest: seq<T>, tail: seq<T>)
    requires total == mid + rest && mid == a + x && tail == x + rest
    ensures total == a + tail
  {
  }

  lemma ConverseStep(s: ChatState, turns: seq<Turn>)
    requires turns != []
    ensures Converse(s, turns) == Converse(HandleSend(EditInput(s, turns[0].text), turns[0].reply), turns[1..])
  {
  }

  /** The user messages of the final transcript are the earlier ones followed
      by the accepted texts, in the order they were sent. */
  lemma {:induction false} ConverseRecordsSendOrder(s: ChatState, turns: seq<Turn>)
    requires !s.loading
    ensures UserTexts(Converse(s, turns).messages) == UserTexts(s.messages) + SentTexts(turns)
    decreases |turns|
  {
    if turns == [] {
      assert Converse(s, turns) == s;
    } else {
      var h := HandleSend(EditInput(s, turns[0].text), turns[0].reply);
      ConverseStep(s, turns);
      TurnUserTexts(s, turns[0].text, turns[0].reply);
      ConverseRecordsSendOrder(h, turns[1..]);
      SentTextsStep(turns);
      AppendRegroup(UserTexts(Converse(s, turns).messages), UserTexts(h.messages),
                    UserTexts(s.messages), Accepted(turns[0]), SentTexts(turns[1..]), SentTexts(turns));
    }
  }
}

=== FILE: dashboard.dfy ===
/** The dashboard: two parallel fetches that settle together, the four stat
    cards, and the recent-documents panel. */
module Dashboard {
  import opened Outcomes
  import opened Api
  import Localization

  datatype DashboardState = DashboardState(stats: Stats, recentDocs: seq<Doc>, loading: bool)

  const InitialDashboard: DashboardState := DashboardState(Stats(0, 0, 0, 0), [], true)

  /** `fetchData`: `Promise.all` either yields both bodies, which are then
      both written, or rejects, in which case neither is written. `loading`
      is released in every case. */
  function Settle(s: DashboardState, statsRes: Outcome<Stats>, docsRes: Outcome<Option<seq<Doc>>>): (r: DashboardState)
    ensures !r.loading
    ensures statsRes.Ok? && docsRes.Ok? ==> r.stats == statsRes.value && r.recentDocs == OrEmpty(docsRes.value)
    ensures statsRes.Err? || docsRes.Err? ==> r.stats == s.stats && r.recentDocs == s.recentDocs
  {
    if statsRes.Ok? && docsRes.Ok? then
      DashboardState(statsRes.value, OrEmpty(docsRes.value), false)
    else
      s.(loading := false)
  }

  /** From the initial state, any failure leaves both fields at their defaults:
      there is no partial update. */
  lemma AllOrNothing(statsRes: Outcome<Stats>, docsRes: Outcome<Option<seq<Doc>>>)
    requires statsRes.Err? || docsRes.Err?
    ensures Settle(InitialDashboard, statsRes, docsRes) == InitialDashboard.(loading := false)
  {
  }

  /** A stat card: the dictionary key of its label and the number shown. */
  datatype StatCard = StatCard(labelKey: string, value: int)

  function StatCards(stats: Stats): seq<StatCard> {
    [ StatCard("recentDocuments", stats.documents),
      StatCard("recentTranslations", stats.translations),
      StatCard("chatSessions", stats.chatSessions),
      StatCard("legalArticles", stats.legalArticles) ]
  }

  /** Four cards, in the order documents, translations, chat sessions, legal
      articles, each labelled by a key both dictionaries define, so no label
      is ever shown as its raw key. */
  lemma StatCardsComplete(stats: Stats)
    ensures var cards := StatCards(stats);
      && |cards| == 4
      && cards[0].value == stats.documents && cards[1].value == stats.translations
      && cards[2].value == stats.chatSessions && cards[3].value == stats.legalArticles
      && forall i :: 0 <= i < 4 ==> cards[i].labelKey in Localization.DictionaryKeys
  {
  }

  /** A card's label, looked up in a supported language, is a translation. */
  lemma StatCardLabelTranslated(stats: Stats, language: string, i: int)
    requires Localization.IsSupported(language) && 0 <= i < 4
    ensures var key := StatCards(stats)[i].labelKey;
      Localization.T(Localization.Provider(language), key) != Some(key)
  {
    StatCardsComplete(stats);
    Localization.SharedKeyTranslated(language, StatCards(stats)[i].labelKey);
  }

  /** What the recent-documents panel shows. */
  datatype Panel = LoadingText | DocumentList | EmptyState

  function RecentPanel(s: DashboardState): (p: Panel)
    ensures p == LoadingText <==> s.loading
    ensures p == DocumentList <==> !s.loading && |s.recentDocs| > 0
    ensures p == EmptyState <==> !s.loading && |s.recentDocs| == 0
  {
    if s.loading then LoadingText
    else if |s.recentDocs| > 0 then DocumentList
    else EmptyState
  }

  /** Once the pair settles the panel never shows the loading text again, and
      it lists documents exactly when the documents request succeeded with a
      non-empty list (starting from the initial state). */
  lemma PanelAfterSettle(statsRes: Outcome<Stats>, docsRes: Outcome<Option<seq<Doc>>>)
    ensures var p := RecentPanel(Settle(InitialDashboard, statsRes, docsRes));
      && p != LoadingText
      && (p == DocumentList <==> statsRes.Ok? && docsRes.Ok? && |OrEmpty(docsRes.value)| > 0)
  {
  }
}

=== FILE: documents.dfy ===
/** The documents view: the list fetch, the upload, and the filename filter. */
module Documents {
  import opened Outcomes
  import opened Text
  import opened Api
  import Seqs

  datatype DocumentsState = DocumentsState(documents: seq<Doc>, uploading: bool, searchQuery: string)

  const InitialDocuments: DocumentsState := DocumentsState([], false, [])

  /** The filter test: the lower-cased filename contains the lower-cased query. */
  predicate Matches(query: string, d: Doc) {
    Includes(Lower(d.filename), Lower(query))
  }

  /** `filteredDocuments` */
  function Filtered(docs: seq<Doc>, query: string): (r: seq<Doc>)
    ensures forall i :: 0 <= i < |r| ==> r[i] in docs && Matches(query, r[i])
    ensures forall i :: 0 <= i < |docs| && Matches(query, docs[i]) ==> docs[i] in r
    ensures forall i :: 0 <= i < |docs| ==>
      multiset(r)[docs[i]] == if Matches(query, docs[i]) then multiset(docs)[docs[i]] else 0
  {
    Seqs.Filter(d => Matches(query, d), docs)
  }

  /** The filter keeps the original order and drops only non-matching documents. */
  lemma FilteredIsSubsequence(docs: seq<Doc>, query: string)
    ensures Seqs.IsSubsequence(Filtered(docs, query), docs)
  {
    Seqs.FilterIsSubsequence(d => Matches(query, d), docs);
  }

  /** An empty query shows every document. */
  lemma EmptyQueryKeepsAll(docs: seq<Doc>)
    ensures Filtered(docs, []) == docs
  {
    forall i | 0 <= i < |docs|
      ensures Matches([], docs[i])
    {
      EmptyIncludedEverywhere(Lower(docs[i].filename));
    }
    Seqs.FilterKeepsAll(d => Matches([], d), docs);
  }

  /** Filtering the filtered list with the same query changes nothing. */
  lemma FilteredIdempotent(docs: seq<Doc>, query: string)
    ensures Filtered(Filtered(docs, query), query) == Filtered(docs, query)
  {
    Seqs.FilterIdempotent(d => Matches(query, d), docs);
  }

  /** Case does not matter: a query matches exactly what its lower-cased form
      matches. */
  lemma FilterIgnoresQueryCase(docs: seq<Doc>, query: string)
    ensures Filtered(docs, Lower(query)) == Filtered(docs, query)
  {
    LowerIdempotent(query);
    Seqs.FilterAgreeing(d => Matches(Lower(query), d), d => Matches(query, d), docs);
  }

  /** The empty-state panel is shown exactly when no document matches. */
  predicate ShowsEmptyState(s: DocumentsState) {
    |Filtered(s.documents, s.searchQuery)| == 0
  }

  lemma EmptyStateIffNoMatch(s: DocumentsState)
    ensures ShowsEmptyState(s) <==> forall i :: 0 <= i < |s.documents| ==> !Matches(s.searchQuery, s.documents[i])
  {
    var r := Filtered(s.documents, s.searchQuery);
    if r != [] {
      assert r[0] in s.documents && Matches(s.searchQuery, r[0]);
    }
  }

  /** Before the first fetch settles the list is empty, so the view opens on
      the empty-state panel, whatever is typed into the search box. */
  lemma MountShowsEmptyState(query: string)
    ensures ShowsEmptyState(InitialDocuments)
    ensures ShowsEmptyState(InitialDocuments.(searchQuery := query))
  {
  }

  /** `fetchDocuments` settled: `documents || []` on success, unchanged on failure. */
  function SettleFetch(s: DocumentsState, outcome: Outcome<Option<seq<Doc>>>): (r: DocumentsState)
    ensures r.documents == SettleList(s.documents, outcome)
    ensures r.uploading == s.uploading && r.searchQuery == s.searchQuery
  {
    s.(documents := SettleList(s.documents, outcome))
  }

  /** A picked file (only its presence matters to the view). */
  datatype UploadStart = NoFile | Uploading(pending: DocumentsState)

  /** Phase one of `handleFileUpload`: nothing happens without a file. */
  function BeginUpload(s: DocumentsState, fileChosen: bool): (r: UploadStart)
    ensures r.NoFile? <==> !fileChosen
    ensures r.Uploading? ==> r.pending == s.(uploading := true)
  {
    if !fileChosen then NoFile else Uploading(s.(uploading := true))
  }

  /** Phase two: `uploading` is released either way, and a re-fetch is issued
      (not awaited) only after a successful upload. */
  datatype UploadEnd = UploadEnd(state: DocumentsState, refetch: bool)

  function CompleteUpload(pending: DocumentsState, outcome: Outcome<()>): (r: UploadEnd)
    ensures !r.state.uploading
    ensures r.refetch <==> outcome.Ok?
    ensures r.state.documents == pending.documents && r.state.searchQuery == pending.searchQuery
  {
    UploadEnd(pending.(uploading := false), outcome.Ok?)
  }

  /** An upload never changes the list by itself; only the re-fetch it triggers can. */
  lemma UploadLeavesListToRefetch(s: DocumentsState, outcome: Outcome<()>)
    ensures BeginUpload(s, false) == NoFile
    ensures CompleteUpload(BeginUpload(s, true).pending, outcome).state == s.(uploading := false)
  {
  }
}

=== FILE: endtoend.dfy ===
/** Properties that connect a client view to the backend handler it calls:
    what the client sends is what the handler decides on, and what the
    handler answers is what the view ends up showing. */
module EndToEnd {
  import opened Outcomes
  import opened Text
  import LegalChat
  import Translate
  import Knowledge
  import Server

  /** How the client sees a handler's result: any raised error is a failed call. */
  function AsOutcome<T, U>(r: Result<T, Server.HttpError>, body: T -> U): (o: Outcome<U>)
    ensures o.Ok? <==> r.Success?
    ensures o.Ok? ==> o.value == body(r.value)
  {
    match r
    case Success(v) => Ok(body(v))
    case Failure(_) => Err
  }

  /** A translation round trip: the text the view sends comes back as the tail
      of the translation it shows, and a detected language is reported exactly
      when the view left the source on auto-detect. */
  lemma TranslationShowsOriginal(s: Translate.TranslateState, store: seq<Server.TranslationRecord>,
                                 detect: Server.Detector, id: string, now: string)
    requires !IsBlank(s.sourceText)
    ensures var req := Translate.BeginTranslate(s).request;
      var served := Server.TranslateText(store, Server.TranslationRequest(req.text, req.sourceLanguage, req.targetLanguage),
                                         detect, id, now).response;
      && EndsWith(Translate.HandleTranslate(s, Ok(served.translatedText)).translatedText, s.sourceText)
      && (served.detectedLanguage.Some? <==> s.sourceLang == "auto")
      && served.targetLanguage == s.targetLang
  {
  }

  /** After the mount effect, every chat request carries the view's session
      id and the server keeps it rather than inventing one. */
  lemma ServerKeepsMountedSession(s: LegalChat.ChatState, now: nat, newSessionId: string, context: Option<string>)
    requires LegalChat.BeginSend(LegalChat.Mount(s, now)).Started?
    ensures var req := LegalChat.BeginSend(LegalChat.Mount(s, now)).request;
      Server.ResolveSessionId(req.sessionId, newSessionId) == LegalChat.SessionIdAt(now)
  {
    assert LegalChat.SessionIdAt(now) != [];
  }

  /** A request sent before the mount effect has run has no session id, so
      the server files it under the id it generates. */
  lemma UnmountedSendGetsServerSession(s: LegalChat.ChatState, newSessionId: string)
    requires s.sessionId.None? && LegalChat.BeginSend(s).Started?
    ensures Server.ResolveSessionId(LegalChat.BeginSend(s).request.sessionId, newSessionId) == newSessionId
  {
  }

  /** The assistant message the view appends is the model's answer when the
      handler succeeds and the fixed apology when it raises. */
  lemma ChatReplyReachesTranscript(s: LegalChat.ChatState, store: seq<Server.ChatRecord>,
                                   model: Server.LanguageModel, newSessionId: string, id: string, now: string)
    requires !LegalChat.SendDisabled(s)
    ensures var req := LegalChat.BeginSend(s).request;
      var handled := Server.LegalChat(store, Server.ChatRequest(req.message, req.sessionId, None), model, newSessionId, id, now);
      var r := LegalChat.HandleSend(s, AsOutcome(handled, (c: Server.Chatted) => c.reply.response));
      var sid := Server.ResolveSessionId(s.sessionId, newSessionId);
      && r.messages[|s.messages|] == LegalChat.Message(LegalChat.User, s.input)
      && (handled.Success? ==> r.messages[|s.messages| + 1].content == model(sid, s.input).value)
      && (handled.Failure? ==> r.messages[|s.messages| + 1].content == LegalChat.Apology)
  {
  }

  /** The knowledge view's filters reach the backend query: a category or
      language filter applies exactly when a value other than 'all' (and
      other than empty) is selected, and any non-empty search text, even
      white space, becomes a text search. */
  lemma KnowledgeFiltersReachQuery(s: Knowledge.KnowledgeState)
    ensures var p := Knowledge.BuildParams(s);
      var query := Server.BuildQuery(p.q, p.category, p.language);
      && (query.category.Some? <==> s.selectedCategory != "all" && s.selectedCategory != [])
      && (query.category.Some? ==> query.category.value == s.selectedCategory)
      && (query.language.Some? <==> s.selectedLanguage != "all" && s.selectedLanguage != [])
      && (query.anyOf.Some? <==> s.searchQuery != [])
  {
  }

  /** The five English laws seeded into an empty collection carry exactly the
      five categories offered by the filter, in the same order; the Tagalog
      law's category is not offered, so it is only listed when no category is
      selected. */
  lemma SeedCategoriesMatchFilter(newId: nat -> string, clock: nat -> string)
    ensures var laws := Server.InitializeLegalKnowledge([], newId, clock);
      && (forall i :: 0 <= i < 5 ==> laws[i].category == Knowledge.Categories[i + 1])
      && laws[5].category !in Knowledge.Categories
  {
  }
}

=== FILE: knowledge.dfy ===
/** The legal-knowledge view: filters, the query parameters built from them,
    and what triggers a re-fetch. */
module Knowledge {
  import opened Outcomes
  import opened Text
  import opened Api

  datatype KnowledgeState = KnowledgeState(laws: seq<Law>, searchQuery: string,
                                           selectedCategory: string, selectedLanguage: string)

  const InitialKnowledge: KnowledgeState := KnowledgeState([], [], "all", "all")

  /** The category filter's options. */
  const Categories: seq<string> := ["all", "Civil Law", "Labor Law", "Criminal Law", "Family Law", "Privacy Law"]

  /** The query parameters of `GET /legal-knowledge`; `None` leaves the key out. */
  datatype Params = Params(category: Option<string>, language: Option<string>, q: Option<string>)

  const NoParams: Params := Params(None, None, None)

  /** The parameters `fetchLaws` sends: `'all'` means no filter, an empty
      search means no text query, and the search text is sent untrimmed. */
  function BuildParams(s: KnowledgeState): (p: Params)
    ensures p.category.Some? <==> s.selectedCategory != "all"
    ensures p.language.Some? <==> s.selectedLanguage != "all"
    ensures p.q.Some? <==> s.searchQuery != []
    ensures p.category.GetOr("all") == s.selectedCategory
    ensures p.language.GetOr("all") == s.selectedLanguage
    ensures p.q.GetOr([]) == s.searchQuery
  {
    Params(if s.selectedCategory != "all" then Some(s.selectedCategory) else None,
           if s.selectedLanguage != "all" then Some(s.selectedLanguage) else None,
           if s.searchQuery != [] then Some(s.searchQuery) else None)
  }

  /** The mount fetch asks for everything. */
  lemma DefaultsBuildNoParams()
    ensures BuildParams(InitialKnowledge) == NoParams
  {
  }

  /** The parameters determine the filters: different filter settings never
      produce the same request. */
  lemma BuildParamsInjective(a: KnowledgeState, b: KnowledgeState)
    requires BuildParams(a) == BuildParams(b)
    ensures a.selectedCategory == b.selectedCategory
    ensures a.selectedLanguage == b.selectedLanguage
    ensures a.searchQuery == b.searchQuery
  {
    assert BuildParams(a).category.GetOr("all") == BuildParams(b).category.GetOr("all");
    assert BuildParams(a).language.GetOr("all") == BuildParams(b).language.GetOr("all");
    assert BuildParams(a).q.GetOr([]) == BuildParams(b).q.GetOr([]);
  }

  /** White space alone is still sent as a text query. */
  lemma BlankQueryIsSent(s: KnowledgeState)
    requires s.searchQuery != [] && IsBlank(s.searchQuery)
    ensures BuildParams(s).q == Some(s.searchQuery)
  {
  }

  /** Every option but the first is a real category, so choosing it filters. */
  lemma CategoryOptionsFilter(i: int)
    requires 1 <= i < |Categories|
    ensures BuildParams(InitialKnowledge.(selectedCategory := Categories[i])).category == Some(Categories[i])
  {
  }

  /** A user action on the view. */
  datatype Event = SelectCategory(category: string) | SelectLanguage(language: string)
                 | TypeQuery(text: string) | KeyPress(key: string)

  /** The new state, and the parameters of the fetch the action triggers, if
      any: the effect re-runs when a filter value actually changes, and Enter
      in the search box calls `handleSearch`. */
  datatype Reaction = Reaction(state: KnowledgeState, fetch: Option<Params>)

  function OnEvent(s: KnowledgeState, e: Event): (r: Reaction)
    ensures r.fetch.Some? <==> match e
      case SelectCategory(c) => c != s.selectedCategory
      case SelectLanguage(l) => l != s.selectedLanguage
      case TypeQuery(_) => false
      case KeyPress(k) => k == "Enter"
    ensures r.fetch.Some? ==> r.fetch.value == BuildParams(r.state)
    ensures r.state.laws == s.laws
    ensures r.state.selectedCategory == if e.SelectCategory? then e.category else s.selectedCategory
    ensures r.state.selectedLanguage == if e.SelectLanguage? then e.language else s.selectedLanguage
    ensures r.state.searchQuery == if e.TypeQuery? then e.text else s.searchQuery
  {
    match e
    case SelectCategory(c) =>
      var t := s.(selectedCategory := c);
      Reaction(t, if c != s.selectedCategory then Some(BuildParams(t)) else None)
    case SelectLanguage(l) =>
      var t := s.(selectedLanguage := l);
      Reaction(t, if l != s.selectedLanguage then Some(BuildParams(t)) else None)
    case TypeQuery(text) =>
      Reaction(s.(searchQuery := text), None)
    case KeyPress(k) =>
      Reaction(s, if k == "Enter" then Some(BuildParams(s)) else None)
  }

  /** Typing changes the text that the next fetch will send, but fetches nothing. */
  lemma TypingOnlyAffectsNextSearch(s: KnowledgeState, text: string)
    ensures OnEvent(s, TypeQuery(text)).fetch == None
    ensures OnEvent(OnEvent(s, TypeQuery(text)).state, KeyPress("Enter")).fetch
      == Some(BuildParams(s.(searchQuery := text)))
  {
  }

  /** `fetchLaws` settled: `laws || []` on success, unchanged on failure. */
  function SettleFetch(s: KnowledgeState, outcome: Outcome<Option<seq<Law>>>): (r: KnowledgeState)
    ensures r.laws == SettleList(s.laws, outcome)
    ensures r.searchQuery == s.searchQuery && r.selectedCategory == s.selectedCategory
    ensures r.selectedLanguage == s.selectedLanguage
  {
    s.(laws := SettleList(s.laws, outcome))
  }
}

=== FILE: localization.dfy ===
/** The language provider: the active display language, the two
    dictionaries, the lookup with fallback `t` and the language toggle. */
module Localization {
  import opened Outcomes

  const English: map<string, string> := map[
    "appName" := "Batas.AI",
    "tagline" := "Philippine Legal Assistance",
    "dashboard" := "Dashboard",
    "documents" := "Documents",
    "translate" := "Translate",
    "legalChat" := "Legal Chat",
    "history" := "History",
    "knowledge" := "Legal Knowledge",
    "uploadDocument" := "Upload Document",
    "recentDocuments" := "Recent Documents",
    "recentTranslations" := "Recent Translations",
    "chatSessions" := "Chat Sessions",
    "legalArticles" := "Legal Articles",
    "welcome" := "Welcome to Batas.AI",
    "welcomeDesc" := "Your AI-powered Philippine legal assistant",
    "noDocuments" := "No documents uploaded yet",
    "uploadHere" := "Upload your first document",
    "dragDrop" := "Drag and drop or click to upload",
    "supportedFormats" := "Supported formats: PDF, TXT",
    "translateText" := "Translate Text",
    "sourceLanguage" := "Source Language",
    "targetLanguage" := "Target Language",
    "english" := "English",
    "tagalog" := "Tagalog",
    "detectLanguage" := "Auto-detect",
    "translate_btn" := "Translate",
    "translating" := "Translating...",
    "original" := "Original",
    "translation" := "Translation",
    "askLegalQuestion" := "Ask a Legal Question",
    "typeMessage" := "Type your legal question here...",
    "send" := "Send",
    "assistant" := "Legal Assistant",
    "you" := "You",
    "disclaimer" := "This is for informational purposes only and does not constitute legal advice."
  ]

  const Tagalog: map<string, string> := map[
    "appName" := "Batas.AI",
    "tagline" := "Tulong Legal ng Pilipinas",
    "dashboard" := "Dashboard",
    "documents" := "Mga Dokumento",
    "translate" := "Isalin",
    "legalChat" := "Legal Chat",
    "history" := "Kasaysayan",
    "knowledge" := "Kaalaman sa Batas",
    "uploadDocument" := "Mag-upload ng Dokumento",
    "recentDocuments" := "Kamakailang Dokumento",
    "recentTranslations" := "Kamakailang Pagsasalin",
    "chatSessions" := "Mga Chat Session",
    "legalArticles" := "Mga Artikulo ng Batas",
    "welcome" := "Maligayang pagdating sa Batas.AI",
    "welcomeDesc" := "Ang iyong AI-powered na tulong legal ng Pilipinas",
    "noDocuments" := "Walang naka-upload na dokumento",
    "uploadHere" := "Mag-upload ng iyong unang dokumento",
    "dragDrop" := "I-drag at i-drop o i-click upang mag-upload",
    "supportedFormats" := "Suportadong format: PDF, TXT",
    "translateText" := "Isalin ang Teksto",
    "sourceLanguage" := "Pinagmulang Wika",
    "targetLanguage" := "Target na Wika",
    "english" := "Ingles",
    "tagalog" := "Tagalog",
    "detectLanguage" := "Auto-detect",
    "translate_btn" := "Isalin",
    "translating" := "Nagsasalin...",
    "original" := "Orihinal",
    "translation" := "Salin",
    "askLegalQuestion" := "Magtanong ng Legal na Katanungan",
    "typeMessage" := "I-type ang iyong legal na tanong dito...",
    "send" := "Ipadala",
    "assistant" := "Legal Assistant",
    "you" := "Ikaw",
    "disclaimer" := "Ito ay para sa layuning pang-impormasyon lamang at hindi bumubuo ng legal na payo."
  ]

  /** The keys both dictionaries define. */
  const DictionaryKeys: set<string> := {
    "appName", "tagline", "dashboard", "documents", "translate", "legalChat", "history",
    "knowledge", "uploadDocument", "recentDocuments", "recentTranslations", "chatSessions",
    "legalArticles", "welcome", "welcomeDesc", "noDocuments", "uploadHere", "dragDrop",
    "supportedFormats", "translateText", "sourceLanguage", "targetLanguage", "english",
    "tagalog", "detectLanguage", "translate_btn", "translating", "original", "translation",
    "askLegalQuestion", "typeMessage", "send", "assistant", "you", "disclaimer"
  }

  /** `translations`: one dictionary per supported language. */
  const Translations: map<string, map<string, string>> := map["en" := English, "tl" := Tagalog]

  /** The languages that have a dictionary. */
  predicate IsSupported(language: string) {
    language == "en" || language == "tl"
  }

  /** The property names every JavaScript object inherits from
      `Object.prototype`. Indexing `translations` with one of them yields an
      inherited value rather than `undefined`, so `t` does not throw there;
      the model does not represent those inherited values. */
  const InheritedNames: set<string> := {
    "constructor", "hasOwnProperty", "isPrototypeOf", "propertyIsEnumerable",
    "toLocaleString", "toString", "valueOf", "__proto__",
    "__defineGetter__", "__defineSetter__", "__lookupGetter__", "__lookupSetter__"
  }

  /** The provider's state. `setLanguage` is handed to every consumer, so
      nothing but callers' discipline keeps `language` supported. */
  datatype Provider = Provider(language: string)

  /** `useState('en')` */
  const InitialProvider: Provider := Provider("en")

  /** The lookup with fallback over any dictionary table: the entry for `key`
      when it is present and non-empty (JavaScript `||` treats "" as absent),
      otherwise `key` itself. `None` stands for the TypeError thrown when the
      active language has no dictionary at all. */
  function Lookup(dicts: map<string, map<string, string>>, language: string, key: string): (r: Option<string>)
    ensures r.Some? <==> language in dicts
    ensures r.Some? ==> r.value == key || r.value in dicts[language].Values
    ensures r.Some? && r.value != key ==> key in dicts[language] && dicts[language][key] == r.value
    ensures language in dicts && key in dicts[language] && dicts[language][key] != "" ==> r == Some(dicts[language][key])
    ensures language in dicts && (key !in dicts[language] || dicts[language][key] == "") ==> r == Some(key)
  {
    if language !in dicts then None
    else
      var dict := dicts[language];
      if key in dict && dict[key] != "" then Some(dict[key]) else Some(key)
  }

  /** `t(key)` for the provider's current language: the entry of the active
      dictionary, the key itself when that entry is missing, and a failure
      when the language has no dictionary. */
  function T(p: Provider, key: string): (r: Option<string>)
    ensures r.Some? <==> p.language in Translations
    ensures r.Some? && key in Translations[p.language] && Translations[p.language][key] != "" ==>
      r.value == Translations[p.language][key]
    ensures r.Some? && key !in Translations[p.language] ==> r.value == key
  {
    Lookup(Translations, p.language, key)
  }

  /** A key missing from the active language's dictionary degrades to the key
      itself, whatever the other languages hold. */
  lemma MissingKeyEchoes(dicts: map<string, map<string, string>>, language: string, key: string)
    requires language in dicts && key !in dicts[language]
    ensures Lookup(dicts, language, key) == Some(key)
  {
  }

  /** `toggleLanguage`: `'en'` becomes `'tl'`, anything else becomes `'en'`. */
  function Toggle(prev: string): (next: string)
    ensures IsSupported(next)
    ensures IsSupported(prev) ==> next != prev
    ensures !IsSupported(prev) ==> next == "en"
  {
    if prev == "en" then "tl" else "en"
  }

  function ToggleLanguage(p: Provider): Provider {
    Provider(Toggle(p.language))
  }

  /** The raw `setLanguage` exposed in the context value. */
  function SetLanguage(p: Provider, language: string): Provider {
    Provider(language)
  }

  /** `useLanguage`: the context value inside a provider, an error outside. */
  function UseLanguage(context: Option<Provider>): (r: Result<Provider, string>)
    ensures r.Failure? <==> context.None?
    ensures r.Success? ==> r.value == context.value
    ensures r.Failure? ==> r.error == "useLanguage must be used within LanguageProvider"
  {
    match context
    case Some(p) => Success(p)
    case None => Failure("useLanguage must be used within LanguageProvider")
  }

  /** Toggling twice restores a supported language. */
  lemma ToggleInvolutive(language: string)
    requires IsSupported(language)
    ensures Toggle(Toggle(language)) == language
  {
  }

  /** Outside the supported pair the toggle is not an involution: the first
      toggle lands on `'en'`, the second on `'tl'`. */
  lemma ToggleTwiceOutsideSupported(language: string)
    requires !IsSupported(language)
    ensures Toggle(Toggle(language)) == "tl" != language
  {
  }

  /** The two dictionaries define exactly the same keys. */
  lemma DictionariesShareKeys()
    ensures English.Keys == Tagalog.Keys == DictionaryKeys
    ensures Translations.Keys == {"en", "tl"}
  {
    EnglishKeys();
    TagalogKeys();
  }

  lemma EnglishKeys()
    ensures English.Keys == DictionaryKeys
  {
  }

  lemma TagalogKeys()
    ensures Tagalog.Keys == DictionaryKeys
  {
  }

  lemma EnglishEntriesNonEmpty(key: string)
    requires key in English
    ensures key != "" && English[key] != ""
  {
  }

  lemma TagalogEntriesNonEmpty(key: string)
    requires key in Tagalog
    ensures key != "" && Tagalog[key] != ""
  {
  }

  /** No dictionary entry is empty and no key is the empty string. */
  lemma EntriesNonEmpty(language: string, key: string)
    requires IsSupported(language) && key in Translations[language]
    ensures key != "" && Translations[language][key] != ""
  {
    if language == "en" {
      EnglishEntriesNonEmpty(key);
    } else {
      TagalogEntriesNonEmpty(key);
    }
  }

  /** No entry is its own key, so an echoed key always means "missing". */
  lemma EntriesDifferFromKeys(language: string, key: string)
    requires IsSupported(language) && key in Translations[language]
    ensures Translations[language][key] != key
  {
    if language == "en" {
      EnglishEntriesDifferFromKeys(key);
    } else {
      TagalogEntriesDifferFromKeys(key);
    }
  }

  lemma EnglishEntriesDifferFromKeys(key: string)
    requires key in English
    ensures English[key] != key
  {
  }

  lemma TagalogEntriesDifferFromKeys(key: string)
    requires key in Tagalog
    ensures Tagalog[key] != key
  {
  }

  /** With a supported language, `t` never fails, echoes the key exactly when
      the key is missing, and yields "" only for the empty key. */
  lemma ResolveTotal(p: Provider, key: string)
    requires IsSupported(p.language)
    ensures T(p, key).Some?
    ensures T(p, key) == Some(key) <==> key !in Translations[p.language]
    ensures T(p, key).value == "" <==> key == ""
  {
    if key in Translations[p.language] {
      EntriesNonEmpty(p.language, key);
      EntriesDifferFromKeys(p.language, key);
    }
  }

  /** A key both dictionaries define is translated, never echoed, in either
      supported language. */
  lemma SharedKeyTranslated(language: string, key: string)
    requires IsSupported(language) && key in DictionaryKeys
    ensures T(Provider(language), key) != Some(key)
  {
    DictionariesShareKeys();
    ResolveTotal(Provider(language), key);
  }

  /** A key is translated (not echoed) in one language exactly when it is in
      the other. */
  lemma TranslatedInBothOrNeither(key: string)
    ensures T(Provider("en"), key) == Some(key) <==> T(Provider("tl"), key) == Some(key)
  {
    DictionariesShareKeys();
    ResolveTotal(Provider("en"), key);
    ResolveTotal(Provider("tl"), key);
  }

  /** The language stays supported from the initial state through any number
      of toggles; the raw setter keeps it supported exactly for supported
      values, and a name that is neither supported nor inherited from
      `Object.prototype` makes `t` throw. */
  lemma ProviderInvariant(p: Provider, language: string)
    ensures IsSupported(InitialProvider.language)
    ensures IsSupported(ToggleLanguage(p).language)
    ensures IsSupported(SetLanguage(p, language).language) <==> IsSupported(language)
    ensures !IsSupported(language) && language !in InheritedNames ==> T(SetLanguage(p, language), "send").None?
  {
  }
}

=== FILE: outcomes.dfy ===
/** Small failure-carrying datatypes shared by the client and server models. */
module Outcomes {

  /** A value that may be absent: a missing JSON field, a null session id. */
  datatype Option<+T> = None | Some(value: T) {
    function GetOr(default: T): T {
      match this
      case Some(v) => v
      case None => default
    }
  }

  /** The settled result of one network call as the client sees it: the
      response body, or any failure (network error, non-2xx status, timeout). */
  datatype Outcome<+T> = Ok(value: T) | Err

  /** A server-side computation that either produces a value or raises. */
  datatype Result<+T, +E> = Success(value: T) | Failure(error: E)
}

=== FILE: seqs.dfy ===
/** `Array.prototype.filter` over sequences, with the facts the views rely on. */
module Seqs {

  /** The elements of `s` that satisfy `keep`, in their original order. */
  function Filter<T>(keep: T -> bool, s: seq<T>): (r: seq<T>)
    ensures |r| <= |s|
    ensures forall i :: 0 <= i < |r| ==> r[i] in s && keep(r[i])
    ensures forall i :: 0 <= i < |s| && keep(s[i]) ==> s[i] in r
    ensures forall i :: 0 <= i < |s| ==> multiset(r)[s[i]] == if keep(s[i]) then multiset(s)[s[i]] else 0
  {
    if s == [] then []
    else
      assert s == [s[0]] + s[1..];
      if keep(s[0]) then [s[0]] + Filter(keep, s[1..])
      else Filter(keep, s[1..])
  }

  /** `a` can be obtained from `b` by deleting elements, keeping the order of
      the rest. */
  ghost predicate IsSubsequence<T>(a: seq<T>, b: seq<T>)
    decreases |b|
  {
    if a == [] then true
    else if b == [] then false
    else if a[0] == b[0] then IsSubsequence(a[1..], b[1..])
    else IsSubsequence(a, b[1..])
  }

  lemma {:induction false} FilterIsSubsequence<T>(keep: T -> bool, s: seq<T>)
    ensures IsSubsequence(Filter(keep, s), s)
  {
    if s != [] {
      FilterIsSubsequence(keep, s[1..]);
      if !keep(s[0]) {
        var r := Filter(keep, s[1..]);
        if r != [] {
          SubsequenceExtends(r, s[1..], s[0]);
        }
      }
    }
  }

  /** Adding an element in front of `b` keeps `a` a subsequence of it. */
  lemma {:induction false} SubsequenceExtends<T>(a: seq<T>, b: seq<T>, x: T)
    requires IsSubsequence(a, b)
    ensures IsSubsequence(a, [x] + b)
    decreases |b|, 1
  {
    assert ([x] + b)[1..] == b;
    if a != [] && a[0] == x {
      SubsequenceDropFront(a, b);
    }
  }

  /** Dropping the first element of `a` keeps it a subsequence of `b`. */
  lemma {:induction false} SubsequenceDropFront<T>(a: seq<T>, b: seq<T>)
    requires a != [] && IsSubsequence(a, b)
    ensures IsSubsequence(a[1..], b)
    decreases |b|, 0
  {
    if a[1..] != [] {
      if a[0] == b[0] {
        SubsequenceExtends(a[1..], b[1..], b[0]);
      } else {
        SubsequenceDropFront(a, b[1..]);
        SubsequenceExtends(a[1..], b[1..], b[0]);
      }
      assert [b[0]] + b[1..] == b;
    }
  }

  /** When every element passes, filtering changes nothing. */
  lemma {:induction false} FilterKeepsAll<T>(keep: T -> bool, s: seq<T>)
    requires forall i :: 0 <= i < |s| ==> keep(s[i])
    ensures Filter(keep, s) == s
  {
    if s != [] {
      FilterKeepsAll(keep, s[1..]);
    }
  }

  /** Filtering twice with the same test is filtering once. */
  lemma FilterIdempotent<T>(keep: T -> bool, s: seq<T>)
    ensures Filter(keep, Filter(keep, s)) == Filter(keep, s)
  {
    FilterKeepsAll(keep, Filter(keep, s));
  }

  /** Tests that agree on every element of `s` filter it the same way. */
  lemma {:induction false} FilterAgreeing<T>(keep: T -> bool, keep': T -> bool, s: seq<T>)
    requires forall i :: 0 <= i < |s| ==> keep(s[i]) == keep'(s[i])
    ensures Filter(keep, s) == Filter(keep', s)
  {
    if s != [] {
      FilterAgreeing(keep, keep', s[1..]);
    }
  }
}

=== FILE: server.dfy ===
/** The decisions inside the backend's request handlers, lifted out as total
    functions. Collections are sequences; ids, clocks, language detection,
    file decoding and the language model are parameters. */
module Server {
  import opened Outcomes
  import opened Text
  import opened Api

  /** An HTTP error response. */
  datatype HttpError = HttpError(status: nat, detail: string)

  /** `str(e)` of an HTTP exception: "<status>: <detail>". */
  function Describe(e: HttpError): string {
    Decimal(e.status) + ": " + e.detail
  }

  /** The handlers' `except Exception as e: raise HTTPException(500, str(e))`,
      applied to an HTTP exception raised inside the `try`. */
  function Rewrap(e: HttpError): (r: HttpError)
    ensures r.status == 500
  {
    HttpError(500, Describe(e))
  }

  /** The status code 400 renders as "400". */
  lemma Decimal400()
    ensures Decimal(400) == "400"
  {
    assert Decimal(4) == "4";
    assert Decimal(40) == Decimal(4) + "0";
  }

  /** A 400 raised inside a handler's `try` reaches the client as a 500 whose
      detail starts with the original status. */
  lemma RewrapOf400(detail: string)
    ensures Rewrap(HttpError(400, detail)) == HttpError(500, "400: " + detail)
  {
    Decimal400();
    assert Decimal(400) + ": " == "400: ";
  }

  /** Python truthiness of an optional string: present and non-empty. */
  predicate Truthy(v: Option<string>) {
    v.Some? && v.value != []
  }

  /** `langdetect.detect`: a language code, or `None` when it raises. */
  type Detector = string -> Option<string>

  /** Only this many leading characters are given to the detector. */
  const DetectWindow: nat := 1000

  /** `detect_language_simple`: the detector's answer on the first 1000
      characters, or "unknown" when it raises. */
  function DetectLanguageSimple(detect: Detector, text: string): (lang: string)
    ensures lang == "unknown" || detect(Head(text, DetectWindow)) == Some(lang)
    ensures detect(Head(text, DetectWindow)).None? ==> lang == "unknown"
    ensures detect(Head(text, DetectWindow)).Some? ==> lang == detect(Head(text, DetectWindow)).value
  {
    match detect(Head(text, DetectWindow))
    case Some(code) => code
    case None => "unknown"
  }

  /** Texts that agree on their first 1000 characters are detected alike. */
  lemma DetectionSeesOnlyWindow(detect: Detector, a: string, b: string)
    requires Head(a, DetectWindow) == Head(b, DetectWindow)
    ensures DetectLanguageSimple(detect, a) == DetectLanguageSimple(detect, b)
  {
  }

  /** The detail of the 400 raised for missing text. */
  const TextRequired: string := "Text is required"

  datatype Detection = Detection(detectedLanguage: string, confidence: real)

  /** `POST /detect-language` given `request.get("text", "")` (`None` for a
      missing or null field). The 400 for empty text is raised inside the
      `try`, so the client receives it re-wrapped as a 500. */
  function DetectLanguageEndpoint(text: Option<string>, detect: Detector): (r: Result<Detection, HttpError>)
    ensures r.Failure? <==> !Truthy(text)
    ensures r.Failure? ==> r.error == HttpError(500, "400: " + TextRequired)
    ensures r.Success? ==> r.value.detectedLanguage == DetectLanguageSimple(detect, text.value)
    ensures r.Success? ==> (r.value.confidence == 0.9 <==> r.value.detectedLanguage != "unknown")
    ensures r.Success? ==> (r.value.confidence == 0.0 <==> r.value.detectedLanguage == "unknown")
  {
    RewrapOf400(TextRequired);
    if !Truthy(text) then
      Failure(Rewrap(HttpError(400, TextRequired)))
    else
      var detected := DetectLanguageSimple(detect, text.value);
      Success(Detection(detected, if detected != "unknown" then 0.9 else 0.0))
  }

  datatype TranslationRequest = TranslationRequest(text: string, sourceLanguage: string, targetLanguage: string)

  datatype TranslationResponse = TranslationResponse(originalText: string, translatedText: string,
                                                     sourceLanguage: string, targetLanguage: string,
                                                     detectedLanguage: Option<string>)

  /** A row of the `translations` collection. */
  datatype TranslationRecord = TranslationRecord(id: string, originalText: string, translatedText: string,
                                                 sourceLanguage: string, targetLanguage: string, createdAt: string)

  /** The source language the translation is attributed to. */
  function ResolveSource(req: TranslationRequest, detect: Detector): (src: string)
    ensures req.sourceLanguage != "auto" ==> src == req.sourceLanguage
    ensures req.sourceLanguage == "auto" ==> src == DetectLanguageSimple(detect, req.text)
  {
    if req.sourceLanguage == "auto" then DetectLanguageSimple(detect, req.text) else req.sourceLanguage
  }

  const PlaceholderHead: string := "[Translation from "

  /** The placeholder translation: a header naming both languages, then the
      original text unchanged. */
  function Placeholder(src: string, tgt: string, text: string): string {
    PlaceholderHead + src + " to " + tgt + "]: " + text
  }

  /** The original text is the tail of the placeholder, so it can be read back. */
  lemma PlaceholderEndsWithText(src: string, tgt: string, text: string)
    ensures var out := Placeholder(src, tgt, text);
      && EndsWith(out, text)
      && out[..|PlaceholderHead|] == PlaceholderHead
      && |out| == |PlaceholderHead| + |src| + 4 + |tgt| + 3 + |text|
  {
  }

  /** For fixed languages, different texts give different placeholders. */
  lemma PlaceholderInjective(src: string, tgt: string, a: string, b: string)
    requires Placeholder(src, tgt, a) == Placeholder(src, tgt, b)
    ensures a == b
  {
    var pa := Placeholder(src, tgt, a);
    var n := |PlaceholderHead + src + " to " + tgt + "]: "|;
    assert pa[n..] == a;
    assert Placeholder(src, tgt, b)[n..] == b;
  }

  datatype Translated = Translated(store: seq<TranslationRecord>, response: TranslationResponse)

  /** `POST /translate`: resolve the source, build the placeholder, append one
      history record and answer. */
  function TranslateText(store: seq<TranslationRecord>, req: TranslationRequest, detect: Detector,
                         id: string, now: string): (r: Translated)
    ensures |r.store| == |store| + 1 && r.store[..|store|] == store
    ensures var rec := r.store[|store|];
      && rec.originalText == req.text && rec.translatedText == r.response.translatedText
      && rec.sourceLanguage == r.response.sourceLanguage && rec.targetLanguage == req.targetLanguage
    ensures r.response.originalText == req.text && r.response.targetLanguage == req.targetLanguage
    ensures r.response.sourceLanguage == ResolveSource(req, detect)
    ensures r.response.detectedLanguage.Some? <==> req.sourceLanguage == "auto"
    ensures r.response.detectedLanguage.Some? ==> r.response.detectedLanguage.value == r.response.sourceLanguage
    ensures r.response.translatedText == Placeholder(r.response.sourceLanguage, req.targetLanguage, req.text)
    ensures EndsWith(r.response.translatedText, req.text)
  {
    var src := ResolveSource(req, detect);
    var translated := Placeholder(src, req.targetLanguage, req.text);
    PlaceholderEndsWithText(src, req.targetLanguage, req.text);
    var rec := TranslationRecord(id, req.text, translated, src, req.targetLanguage, now);
    Translated(store + [rec],
               TranslationResponse(req.text, translated, src, req.targetLanguage,
                                   if req.sourceLanguage == "auto" then Some(src) else None))
  }

  datatype DocType = Pdf | PlainText {
    /** The `document_type` string stored. */
    function Name(): string {
      match this
      case Pdf => "pdf"
      case PlainText => "text"
    }
  }

  /** The type an upload is treated as, by case-sensitive extension. */
  function DocTypeOf(filename: string): (t: DocType)
    ensures t == Pdf <==> EndsWith(filename, ".pdf")
  {
    if EndsWith(filename, ".pdf") then Pdf else PlainText
  }

  /** Only the exact lower-case extension selects PDF extraction. */
  lemma UpperCaseExtensionIsText()
    ensures DocTypeOf("Contract.PDF") == PlainText
    ensures DocTypeOf("contract.pdf") == Pdf
  {
    assert !EndsWith("Contract.PDF", ".pdf") by {
      assert "Contract.PDF"[8..] == ".PDF";
    }
    assert "contract.pdf"[8..] == ".pdf";
  }

  /** A row of the `documents` collection. */
  datatype StoredDoc = StoredDoc(id: string, filename: string, content: string, documentType: string,
                                 language: string, tags: seq<string>, createdAt: string)

  datatype UploadReply = UploadReply(id: string, filename: string, language: string, message: string)

  datatype Uploaded = Uploaded(store: seq<StoredDoc>, reply: UploadReply)

  /** The text of an upload: PDF extraction or UTF-8 decoding of its bytes,
      given as their outcomes (the exception message when they raise). A PDF
      failure is raised as a 400 inside the handler's `try`, so it reaches
      the client re-wrapped as a 500; a decoding failure becomes a 500 directly. */
  function ExtractText(t: DocType, pdfText: Result<string, string>, utf8Text: Result<string, string>): (r: Result<string, HttpError>)
    ensures t == Pdf ==> (r.Success? <==> pdfText.Success?) && (r.Success? ==> r.value == pdfText.value)
    ensures t == PlainText ==> (r.Success? <==> utf8Text.Success?) && (r.Success? ==> r.value == utf8Text.value)
    ensures r.Failure? ==> r.error.status == 500
    ensures r.Failure? && t == Pdf ==> r.error.detail == PdfFailurePrefix + pdfText.error
    ensures r.Failure? && t == PlainText ==> r.error.detail == utf8Text.error
  {
    if t == Pdf then
      match pdfText
      case Success(text) => Success(text)
      case Failure(msg) => Failure(PdfFailure(msg))
    else
      match utf8Text
      case Success(text) => Success(text)
      case Failure(msg) => Failure(HttpError(500, msg))
  }

  /** The detail `extract_text_from_pdf` raises its 400 with. */
  const PdfErrorHead: string := "Error extracting PDF: "

  /** The detail a failed PDF extraction reaches the client with. */
  const PdfFailurePrefix: string := "400: " + PdfErrorHead

  /** `extract_text_from_pdf` raises a 400, which the upload handler re-wraps. */
  function PdfFailure(msg: string): (e: HttpError)
    ensures e == HttpError(500, PdfFailurePrefix + msg)
  {
    RewrapOf400(PdfErrorHead + msg);
    assert "400: " + (PdfErrorHead + msg) == PdfFailurePrefix + msg;
    Rewrap(HttpError(400, PdfErrorHead + msg))
  }

  /** `POST /documents/upload`: classify by extension, take the text, detect
      its language and append one document record. */
  function UploadDocument(store: seq<StoredDoc>, filename: string,
                          pdfText: Result<string, string>, utf8Text: Result<string, string>,
                          detect: Detector, id: string, now: string): (r: Result<Uploaded, HttpError>)
    ensures r.Failure? <==> ExtractText(DocTypeOf(filename), pdfText, utf8Text).Failure?
    ensures r.Failure? ==> r.error == ExtractText(DocTypeOf(filename), pdfText, utf8Text).error
    ensures r.Success? ==> |r.value.store| == |store| + 1 && r.value.store[..|store|] == store
    ensures r.Success? ==>
      var doc := r.value.store[|store|];
      && doc.content == ExtractText(DocTypeOf(filename), pdfText, utf8Text).value
      && doc.filename == filename && doc.id == id && doc.tags == []
      && doc.documentType == (if EndsWith(filename, ".pdf") then "pdf" else "text")
      && doc.language == DetectLanguageSimple(detect, doc.content)
      && r.value.reply == UploadReply(id, filename, doc.language, "Document uploaded successfully")
  {
    var t := DocTypeOf(filename);
    match ExtractText(t, pdfText, utf8Text)
    case Failure(e) => Failure(e)
    case Success(text) =>
      var language := DetectLanguageSimple(detect, text);
      var doc := StoredDoc(id, filename, text, t.Name(), language, [], now);
      Success(Uploaded(store + [doc], UploadReply(id, filename, language, "Document uploaded successfully")))
  }

  /** The position of the first document with the given id (`find_one`). */
  function FindById(store: seq<StoredDoc>, id: string): (i: Option<nat>)
    ensures i.None? <==> forall k :: 0 <= k < |store| ==> store[k].id != id
    ensures i.Some? ==> i.value < |store| && store[i.value].id == id
    ensures i.Some? ==> forall k :: 0 <= k < i.value ==> store[k].id != id
  {
    if store == [] then None
    else if store[0].id == id then Some(0)
    else match FindById(store[1..], id)
      case None => None
      case Some(j) => Some(j + 1)
  }

  /** `GET /documents/{id}`: the 404 is re-raised unchanged, unlike the 400
      of the language-detection endpoint. */
  function GetDocument(store: seq<StoredDoc>, id: string): (r: Result<StoredDoc, HttpError>)
    ensures r.Failure? <==> forall k :: 0 <= k < |store| ==> store[k].id != id
    ensures r.Failure? ==> r.error == HttpError(404, "Document not found")
    ensures r.Success? ==> r.value in store && r.value.id == id
  {
    match FindById(store, id)
    case None => Failure(HttpError(404, "Document not found"))
    case Some(i) => Success(store[i])
  }

  /** A document just uploaded under a fresh id is what fetching that id
      returns. */
  lemma UploadThenGet(store: seq<StoredDoc>, filename: string,
                      pdfText: Result<string, string>, utf8Text: Result<string, string>,
                      detect: Detector, id: string, now: string)
    requires forall k :: 0 <= k < |store| ==> store[k].id != id
    requires UploadDocument(store, filename, pdfText, utf8Text, detect, id, now).Success?
    ensures var up := UploadDocument(store, filename, pdfText, utf8Text, detect, id, now).value;
      GetDocument(up.store, id) == Success(up.store[|store|])
  {
    var up := UploadDocument(store, filename, pdfText, utf8Text, detect, id, now).value;
    var got := GetDocument(up.store, id);
    assert up.store == store + [up.store[|store|]];
    assert got.Success? by {
      assert up.store[|store|].id == id;
    }
    assert got.value in store + [up.store[|store|]];
  }

  /** The two error paths differ: a missing document keeps its 404 while
      empty detection text surfaces as a 500. */
  lemma ErrorStatusesDiffer(detect: Detector)
    ensures GetDocument([], "x").error.status == 404
    ensures DetectLanguageEndpoint(Some([]), detect).error.status == 500
  {
  }

  datatype ChatRequest = ChatRequest(message: string, sessionId: Option<string>, context: Option<string>)

  /** `request.session_id or str(uuid.uuid4())`, the new id passed in. */
  function ResolveSessionId(requested: Option<string>, newSessionId: string): (sid: string)
    ensures Truthy(requested) ==> sid == requested.value
    ensures !Truthy(requested) ==> sid == newSessionId
  {
    if Truthy(requested) then requested.value else newSessionId
  }

  const ContextHead: string := "Context: "

  /** What separates the context from the question. */
  const QuestionHead: string := "\n\nQuestion: "

  /** The text sent to the model: the question alone, or the non-empty
      context and the question, each behind its heading. */
  function Prompt(message: string, context: Option<string>): (p: string)
    ensures EndsWith(p, message)
    ensures !Truthy(context) ==> p == message
    ensures Truthy(context) ==>
      var c := context.value;
      && |p| == |ContextHead| + |c| + |QuestionHead| + |message|
      && p[..|ContextHead|] == ContextHead
      && p[|ContextHead|..|ContextHead| + |c|] == c
      && p[|ContextHead| + |c|..|ContextHead| + |c| + |QuestionHead|] == QuestionHead
  {
    if Truthy(context) then
      var c := context.value;
      var p := ContextHead + c + QuestionHead + message;
      assert p[|p| - |message|..] == message;
      assert p[..|ContextHead|] == ContextHead;
      assert p[|ContextHead|..|ContextHead| + |c|] == c;
      assert p[|ContextHead| + |c|..|ContextHead| + |c| + |QuestionHead|] == QuestionHead;
      p
    else message
  }

  /** For a fixed question, the prompt determines the context. */
  lemma PromptDeterminesContext(message: string, c1: string, c2: string)
    requires c1 != [] && c2 != []
    requires Prompt(message, Some(c1)) == Prompt(message, Some(c2))
    ensures c1 == c2
  {
    var p := Prompt(message, Some(c1));
    assert |c1| == |c2|;
    assert c1 == p[|ContextHead|..|ContextHead| + |c1|];
  }

  /** For a fixed context, the prompt determines the question. */
  lemma PromptDeterminesQuestion(m1: string, m2: string, context: Option<string>)
    requires Prompt(m1, context) == Prompt(m2, context)
    ensures m1 == m2
  {
    var p := Prompt(m1, context);
    if Truthy(context) {
      assert |m1| == |m2|;
      assert m1 == p[|p| - |m1|..];
    }
  }

  /** The language model: given the session id and the prompt, a reply or the
      message of the exception it raised. */
  type LanguageModel = (string, string) -> Result<string, string>

  /** A row of the `chat_history` collection. */
  datatype ChatRecord = ChatRecord(id: string, sessionId: string, userMessage: string,
                                   assistantResponse: string, context: Option<string>, createdAt: string)

  datatype ChatReply = ChatReply(response: string, sessionId: string)

  datatype Chatted = Chatted(store: seq<ChatRecord>, reply: ChatReply)

  /** `POST /chat`: resolve the session, ask the model, record the exchange
      under the original question, and answer with the session id used. */
  function LegalChat(store: seq<ChatRecord>, req: ChatRequest, model: LanguageModel,
                     newSessionId: string, id: string, now: string): (r: Result<Chatted, HttpError>)
    ensures var sid := ResolveSessionId(req.sessionId, newSessionId);
      var answer := model(sid, Prompt(req.message, req.context));
      && (r.Failure? <==> answer.Failure?)
      && (r.Failure? ==> r.error == HttpError(500, answer.error))
      && (r.Success? ==>
            && r.value.reply == ChatReply(answer.value, sid)
            && |r.value.store| == |store| + 1 && r.value.store[..|store|] == store
            && r.value.store[|store|].sessionId == sid
            && r.value.store[|store|].userMessage == req.message
            && r.value.store[|store|].assistantResponse == answer.value
            && r.value.store[|store|].context == req.context)
  {
    var sid := ResolveSessionId(req.sessionId, newSessionId);
    match model(sid, Prompt(req.message, req.context))
    case Failure(msg) => Failure(HttpError(500, msg))
    case Success(response) =>
      var rec := ChatRecord(id, sid, req.message, response, req.context, now);
      Success(Chatted(store + [rec], ChatReply(response, sid)))
  }

  /** One case-insensitive pattern match on one field. */
  datatype FieldMatch = FieldMatch(field: string, pattern: string, options: string)

  /** The query document: an optional `$or` of field matches, and optional
      equality filters on category and language. */
  datatype LegalQuery = LegalQuery(anyOf: Option<seq<FieldMatch>>, category: Option<string>, language: Option<string>)

  const SearchedFields: seq<string> := ["title", "content", "tags"]

  /** `search_legal_knowledge`'s query: each argument contributes only when
      it is present and non-empty. */
  function BuildQuery(q: Option<string>, category: Option<string>, language: Option<string>): (query: LegalQuery)
    ensures query.anyOf.Some? <==> Truthy(q)
    ensures query.anyOf.Some? ==>
      && |query.anyOf.value| == |SearchedFields|
      && forall i :: 0 <= i < |SearchedFields| ==>
           query.anyOf.value[i] == FieldMatch(SearchedFields[i], q.value, "i")
    ensures query.category.Some? <==> Truthy(category)
    ensures query.category.Some? ==> query.category == category
    ensures query.language.Some? <==> Truthy(language)
    ensures query.language.Some? ==> query.language == language
  {
    LegalQuery(
      if Truthy(q) then Some(seq(|SearchedFields|, i requires 0 <= i < |SearchedFields| =>
                                   FieldMatch(SearchedFields[i], q.value, "i")))
      else None,
      if Truthy(category) then category else None,
      if Truthy(language) then language else None)
  }

  /** No arguments, or only empty ones, query everything. */
  lemma EmptyArgumentsQueryAll()
    ensures BuildQuery(None, None, None) == LegalQuery(None, None, None)
    ensures BuildQuery(Some([]), Some([]), Some([])) == LegalQuery(None, None, None)
  {
  }

  /** The statute texts of the mock laws. */
  const CivilArticle19Text: string :=
    "Every person must, in the exercise of his rights and in the performance of his duties, act with justice, give everyone his due, and observe honesty and good faith."
  const LaborArticle279Text: string :=
    "In cases of regular employment, the employer shall not terminate the services of an employee except for a just cause or when authorized by law."
  const AntiRapeLawText: string :=
    "Rape is committed by a man who shall have carnal knowledge of a woman through force, threat, or intimidation."
  const FamilyArticle1Text: string :=
    "Marriage is a special contract of permanent union between a man and a woman entered into in accordance with law for the establishment of conjugal and family life."
  const DataPrivacyActText: string :=
    "It is the policy of the State to protect the fundamental human right of privacy while ensuring free flow of information to promote innovation and growth."
  const BatasSibilArtikulo19Text: string :=
    "Ang bawat tao ay dapat, sa paggamit ng kanyang mga karapatan at sa pagtupad ng kanyang mga tungkulin, kumilos nang may katarungan, bigyan ang bawat isa ng kanyang karapatdapat, at sundin ang katapatan at mabuting pananampalataya."

  /** The six mock laws, ids and timestamps supplied per position. */
  function MockLaws(newId: nat -> string, clock: nat -> string): seq<Law> {
    [ Law(newId(0), "Civil Code of the Philippines - Article 19", "Civil Law",
          CivilArticle19Text,
          ["civil law", "rights", "duties", "good faith"], "en", clock(0)),
      Law(newId(1), "Labor Code - Article 279", "Labor Law",
          LaborArticle279Text,
          ["labor", "employment", "termination", "just cause"], "en", clock(1)),
      Law(newId(2), "Republic Act 8353 - Anti-Rape Law", "Criminal Law",
          AntiRapeLawText,
          ["criminal law", "rape", "sexual crimes"], "en", clock(2)),
      Law(newId(3), "Family Code - Article 1", "Family Law",
          FamilyArticle1Text,
          ["family law", "marriage", "conjugal rights"], "en", clock(3)),
      Law(newId(4), "Data Privacy Act of 2012", "Privacy Law",
          DataPrivacyActText,
          ["privacy", "data protection", "personal information"], "en", clock(4)),
      Law(newId(5), "Batas Sibil ng Pilipinas - Artikulo 19", "Batas Sibil",
          BatasSibilArtikulo19Text,
          ["batas sibil", "karapatan", "tungkulin", "mabuting pananampalataya"], "tl", clock(5)) ]
  }

  /** 1 when the law is in the given language, 0 otherwise. */
  function InLanguage(law: Law, language: string): nat {
    if law.language == language then 1 else 0
  }

  /** How many laws are in the given language. */
  function CountLanguage(laws: seq<Law>, language: string): (n: nat)
    ensures n <= |laws|
  {
    if laws == [] then 0
    else InLanguage(laws[0], language) + CountLanguage(laws[1..], language)
  }

  lemma CountStep(laws: seq<Law>, k: nat, language: string)
    requires k < |laws|
    ensures CountLanguage(laws[k..], language) == InLanguage(laws[k], language) + CountLanguage(laws[k + 1..], language)
  {
    assert laws[k..][1..] == laws[k + 1..];
  }

  /** The count over six laws, position by position. */
  lemma CountSix(laws: seq<Law>, language: string)
    requires |laws| == 6
    ensures CountLanguage(laws, language)
      == InLanguage(laws[0], language) + InLanguage(laws[1], language) + InLanguage(laws[2], language)
       + InLanguage(laws[3], language) + InLanguage(laws[4], language) + InLanguage(laws[5], language)
  {
    assert laws[0..] == laws;
    CountStep(laws, 0, language);
    CountStep(laws, 1, language);
    CountStep(laws, 2, language);
    CountStep(laws, 3, language);
    CountStep(laws, 4, language);
    CountStep(laws, 5, language);
    assert laws[6..] == [];
  }

  /** `initialize_legal_knowledge`: seed the collection only when it is empty. */
  function InitializeLegalKnowledge(store: seq<Law>, newId: nat -> string, clock: nat -> string): (r: seq<Law>)
    ensures |store| > 0 ==> r == store
    ensures |store| == 0 ==> r == MockLaws(newId, clock)
    ensures |store| == 0 ==> |r| == 6 && CountLanguage(r, "en") == 5 && CountLanguage(r, "tl") == 1
  {
    if |store| > 0 then store
    else
      var laws := MockLaws(newId, clock);
      CountSix(laws, "en");
      CountSix(laws, "tl");
      laws
  }

  /** Seeding twice is seeding once, whatever ids and clock the second run sees. */
  lemma SeedingIdempotent(store: seq<Law>, newId: nat -> string, clock: nat -> string,
                          newId': nat -> string, clock': nat -> string)
    ensures var once := InitializeLegalKnowledge(store, newId, clock);
      InitializeLegalKnowledge(once, newId', clock') == once
  {
  }
}

=== FILE: text.dfy ===
/** String operations of the JavaScript and Python runtimes that the model
    relies on, written out over `seq<char>`. */
module Text {

  /** ECMAScript WhiteSpace and LineTerminator code points: exactly the
      characters `String.prototype.trim` removes. */
  predicate IsJsSpace(c: char) {
    || c == '\t' || c == '\n' || c == '\U{000B}' || c == '\U{000C}' || c == '\r'
    || c == ' ' || c == '\U{00A0}' || c == '\U{1680}'
    || ('\U{2000}' <= c <= '\U{200A}')
    || c == '\U{2028}' || c == '\U{2029}' || c == '\U{202F}' || c == '\U{205F}'
    || c == '\U{3000}' || c == '\U{FEFF}'
  }

  /** Every character of `s` is white space (vacuously true of ""). */
  predicate IsBlank(s: string) {
    forall i :: 0 <= i < |s| ==> IsJsSpace(s[i])
  }

  /** Leading white space removed: the result is the longest suffix of `s`
      that does not start with white space. */
  function TrimStart(s: string): (r: string)
    ensures |r| <= |s| && r == s[|s| - |r|..]
    ensures r == [] || !IsJsSpace(r[0])
    ensures forall i :: 0 <= i < |s| - |r| ==> IsJsSpace(s[i])
  {
    if |s| > 0 && IsJsSpace(s[0]) then TrimStart(s[1..]) else s
  }

  /** Trailing white space removed: the result is the longest prefix of `s`
      that does not end with white space. */
  function TrimEnd(s: string): (r: string)
    ensures |r| <= |s| && r == s[..|r|]
    ensures r == [] || !IsJsSpace(r[|r| - 1])
    ensures forall i :: |r| <= i < |s| ==> IsJsSpace(s[i])
  {
    if |s| > 0 && IsJsSpace(s[|s| - 1]) then TrimEnd(s[..|s| - 1]) else s
  }

  /** `s.trim()` */
  function Trim(s: string): string {
    TrimEnd(TrimStart(s))
  }

  /** Leading white space is all there is exactly when `s` is blank. */
  lemma {:induction false} TrimStartEmptyIffBlank(s: string)
    ensures TrimStart(s) == [] <==> IsBlank(s)
  {
    if |s| > 0 && IsJsSpace(s[0]) {
      TrimStartEmptyIffBlank(s[1..]);
      assert forall i :: 1 <= i < |s| ==> s[i] == s[1..][i - 1];
    }
  }

  /** `!s.trim()` holds exactly for blank strings: the guard every view uses
      before sending text to the server. */
  lemma TrimEmptyIffBlank(s: string)
    ensures Trim(s) == [] <==> IsBlank(s)
  {
    var t := TrimStart(s);
    TrimStartEmptyIffBlank(s);
    assert TrimEnd(t) == [] <==> IsBlank(t);
  }

  /** ASCII lower-casing of one character (`toLowerCase` restricted to ASCII). */
  function LowerChar(c: char): char {
    if 'A' <= c <= 'Z' then (c as int + 32) as char else c
  }

  /** `s.toLowerCase()` restricted to ASCII letters. */
  function Lower(s: string): (r: string)
    ensures |r| == |s|
  {
    seq(|s|, i requires 0 <= i < |s| => LowerChar(s[i]))
  }

  lemma LowerIdempotent(s: string)
    ensures Lower(Lower(s)) == Lower(s)
  {
  }

  /** `hay.includes(needle)`: `needle` occurs as a contiguous block of `hay`. */
  predicate Includes(hay: string, needle: string) {
    exists i | 0 <= i <= |hay| - |needle| :: OccursAt(hay, needle, i)
  }

  /** `needle` is the block of `hay` that starts at position `i`. */
  predicate OccursAt(hay: string, needle: string, i: int) {
    0 <= i <= |hay| - |needle| && hay[i..i + |needle|] == needle
  }

  lemma EmptyIncludedEverywhere(hay: string)
    ensures Includes(hay, [])
  {
    assert OccursAt(hay, [], 0);
  }

  /** `s.endswith(suffix)` (Python) / `s.endsWith(suffix)` (JavaScript). */
  predicate EndsWith(s: string, suffix: string) {
    |suffix| <= |s| && s[|s| - |suffix|..] == suffix
  }

  /** Python's `s[:n]`. */
  function Head(s: string, n: nat): (r: string)
    ensures |r| == if |s| < n then |s| else n
    ensures r <= s
  {
    if |s| <= n then s else s[..n]
  }

  predicate IsDigit(c: char) {
    '0' <= c <= '9'
  }

  predicate AllDigits(s: string) {
    forall i :: 0 <= i < |s| ==> IsDigit(s[i])
  }

  function DigitChar(d: nat): (c: char)
    requires d < 10
    ensures IsDigit(c) && c as int - '0' as int == d
  {
    ('0' as int + d) as char
  }

  /** The decimal rendering of a natural number, as JavaScript's template
      literals and Python's `str` produce it: no sign, no leading zeros. */
  function Decimal(n: nat): (r: string)
    ensures |r| >= 1 && AllDigits(r)
    ensures |r| > 1 ==> r[0] != '0'
    decreases n
  {
    if n < 10 then [DigitChar(n)] else Decimal(n / 10) + [DigitChar(n % 10)]
  }

  /** The number a string of decimal digits denotes. */
  function DecimalValue(s: string): nat
    requires AllDigits(s)
  {
    if s == [] then 0
    else DecimalValue(s[..|s| - 1]) * 10 + (s[|s| - 1] as int - '0' as int)
  }

  lemma {:induction false} DecimalRoundTrip(n: nat)
    ensures DecimalValue(Decimal(n)) == n
    decreases n
  {
    if n >= 10 {
      var r := Decimal(n);
      assert r[..|r| - 1] == Decimal(n / 10);
      DecimalRoundTrip(n / 10);
    }
  }

  /** Different numbers never render the same. */
  lemma DecimalInjective(m: nat, n: nat)
    ensures Decimal(m) == Decimal(n) <==> m == n
  {
    if Decimal(m) == Decimal(n) {
      DecimalRoundTrip(m);
      DecimalRoundTrip(n);
    }
  }
}

=== FILE: translate.dfy ===
/** The translate view: language selections, the blank-text guard, and the
    outcome of `POST /translate`. */
module Translate {
  import opened Outcomes
  import opened Text
  import Localization

  datatype TranslateState = TranslateState(sourceText: string, translatedText: string,
                                           sourceLang: string, targetLang: string, loading: bool)

  /** The body of `POST /translate`. */
  datatype TranslateRequest = TranslateRequest(text: string, sourceLanguage: string, targetLanguage: string)

  /** A transient notification raised by a handler. */
  datatype Notice = Confirm(text: string) | Alert(text: string)

  /** The state on mount, given the interface language in effect. */
  function Initial(uiLanguage: string): TranslateState {
    TranslateState([], [], "auto", if uiLanguage == "en" then "tl" else "en", false)
  }

  /** The default target is the other supported language, i.e. what toggling
      the interface language would give; detection is the default source. */
  lemma InitialTargetIsOtherLanguage(uiLanguage: string)
    ensures Initial(uiLanguage).sourceLang == "auto"
    ensures Initial(uiLanguage).targetLang == Localization.Toggle(uiLanguage)
    ensures Localization.IsSupported(uiLanguage) ==> Initial(uiLanguage).targetLang != uiLanguage
  {
  }

  /** Phase one of `handleTranslate`: blank text only raises a notice; otherwise
      `loading` is set and one request carries the selections unchanged. */
  datatype TranslateStart = Refused(notice: Notice) | Requested(pending: TranslateState, request: TranslateRequest)

  function BeginTranslate(s: TranslateState): (r: TranslateStart)
    ensures r.Refused? <==> IsBlank(s.sourceText)
    ensures r.Refused? ==> r.notice == Alert("Please enter text to translate")
    ensures r.Requested? ==>
      && r.pending == s.(loading := true)
      && r.request == TranslateRequest(s.sourceText, s.sourceLang, s.targetLang)
  {
    TrimEmptyIffBlank(s.sourceText);
    if Trim(s.sourceText) == [] then Refused(Alert("Please enter text to translate"))
    else Requested(s.(loading := true), TranslateRequest(s.sourceText, s.sourceLang, s.targetLang))
  }

  /** Phase two: a success shows `translated_text`; a failure keeps the previous
      translation; either way `loading` is released. */
  function CompleteTranslate(pending: TranslateState, outcome: Outcome<string>): (r: TranslateState)
    ensures !r.loading
    ensures outcome.Ok? ==> r.translatedText == outcome.value
    ensures outcome.Err? ==> r.translatedText == pending.translatedText
    ensures r.sourceText == pending.sourceText && r.sourceLang == pending.sourceLang && r.targetLang == pending.targetLang
  {
    match outcome
    case Ok(text) => pending.(translatedText := text, loading := false)
    case Err => pending.(loading := false)
  }

  /** The toast raised once the call settles: a confirmation exactly on
      success, an alert exactly on failure. */
  function CompletionNotice(outcome: Outcome<string>): (n: Notice)
    ensures n.Confirm? <==> outcome.Ok?
    ensures n.Confirm? ==> n.text == "Translation completed"
    ensures n.Alert? ==> n.text == "Translation failed"
  {
    match outcome
    case Ok(_) => Confirm("Translation completed")
    case Err => Alert("Translation failed")
  }

  /** `handleTranslate` run to completion. */
  function HandleTranslate(s: TranslateState, outcome: Outcome<string>): (r: TranslateState)
    ensures IsBlank(s.sourceText) ==> r == s
    ensures !IsBlank(s.sourceText) ==> !r.loading
    ensures !IsBlank(s.sourceText) && outcome.Ok? ==> r == s.(translatedText := outcome.value, loading := false)
    ensures !IsBlank(s.sourceText) && outcome.Err? ==> r == s.(loading := false)
  {
    match BeginTranslate(s)
    case Refused(_) => s
    case Requested(pending, _) => CompleteTranslate(pending, outcome)
  }

  /** `disabled={loading || !sourceText.trim()}` */
  predicate ButtonDisabled(s: TranslateState) {
    s.loading || Trim(s.sourceText) == []
  }

  /** The button is disabled for blank text, which the handler itself also
      refuses; it is additionally disabled while a translation is in flight,
      a case the handler does not check. */
  lemma ButtonCoversGuard(s: TranslateState)
    ensures ButtonDisabled(s) <==> s.loading || BeginTranslate(s).Refused?
  {
    TrimEmptyIffBlank(s.sourceText);
  }

  /** A failed translation leaves the previous result and every selection as
      they were; only `loading` is touched. */
  lemma FailureKeepsPreviousResult(s: TranslateState)
    requires !s.loading
    ensures HandleTranslate(s, Err) == s
  {
  }
}
